=== FILE: README.md ===
# Finance manager core — a Dafny model

`tkinter_1.py` is a desktop tool for loan and financing records. Its records live in SQLite tables keyed by a text `id`, and every change to them writes one JSON audit file. This project models the decision logic of that tool as pure functions and proves properties about them. The Tk widgets, SQLite and pandas are not part of the model. The model covers:

- **Configuration** (`Config`, module `Settings`). Column types, standardization policies (free/fixed values, required) and column selections are kept per table or under the wildcard `"*"`. Lookups fall back from the table, to `"*"`, to a default. Saving a policy under `"*"` copies it into the tables that have no policy of their own (`save_padronizacao`). Dropping a table forgets its settings.
- **Validation** (`validate_value`, module `Validation`). Values are checked against Python's own literal grammars: `int()`, `float()` (module `Numerals`) and `strptime("%d-%m-%Y")` (module `Dates`). Fixed-value policies are checked next, with the exception for an empty value on an initial insert.
- **Audited record store** (module `RecordStore`). It models `insert_row`, `update_cell`, `delete_row` and `drop_table`. Each table is a map from id to row, where a NULL cell is an absent column. The audit log is a sequence that each mutation appends to.
- **Composite edits** (module `Forms`). These are the add-row form's check pipeline and `do_move`. The fill-in dialog's answer is an `Option`, where `None` means the user cancelled.
- **Import** (module `Importer`). This is the upsert loop of `import_file_to_table`, with rollback on the first error.
- **Schedule decoding** (module `Schedule`). `_parse_tuplas_field` turns a `tuplas` cell into a list of installments. `ast.literal_eval` and `str()` are supplied by the caller as a `Runtime`.
- **Chart aggregation** (module `Aggregation`). It covers the data part of `_generate_graph`, ending at the dense month × group matrix. That includes the period window, per-installment extraction, filtering, grouping, the monthly sums and the sorting (module `Ordering`).

Amounts are `real`. Strings are sequences of characters.

Three behaviours of the code are modelled as written:

- An import is one transaction. The first failing row rolls back the whole batch.
- The audit entries of rows processed before that failure are kept. They are written at tkinter_1.py:512, 527 and 542, before the commit, and the rollback at line 547 does not remove them. So the log describes changes that never happened, against the "histórico auditável das alterações" the help text promises at line 684 (see Findings).
- The aggregation reads amortization from tuple index 5. The help text on `tuplas` at tkinter_1.py:666 puts juros at index 5 and amortização at index 6.

## Model

| member | source | states |
|---|---|---|
| Settings.LookupPrecedence | tkinter_1.py:65-103 | `get_visual`, `get_col_type` and `get_col_standardization` read the table's own entry when there is one, and otherwise answer exactly as a lookup under "*" would |
| Settings.VisualSelectionReadsBack | tkinter_1.py:65-73 | a display selection reads back as set, even an empty one; setting it for one table leaves every other table's resolved selection as it was |
| Settings.ReportSelectionReadsBack | tkinter_1.py:75-80 | a non-empty report selection reads back as set; an empty one makes the report show every column |
| Settings.SetVisual | tkinter_1.py:71-73 | the table's display selection reads back as set; every other table keeps its entry or its lack of one; types, policies and report columns are untouched |
| Settings.SetReport | tkinter_1.py:78-80 | for every column list, the report shows the selection when it is non-empty and every column when it is empty; display, type and policy settings are untouched |
| Settings.SetColType | tkinter_1.py:89-93 | exactly one (table, column) type entry is written; every other entry keeps its presence and value |
| Settings.SetStd | tkinter_1.py:105-109 | exactly one (table, column) policy entry is written; every other entry keeps its presence and value |
| Settings.SetThenGet | tkinter_1.py:82-109 | reading a type or policy right after setting it gives the value set |
| Settings.WildcardSettingPrecedence | tkinter_1.py:82-103 | lookups prefer the table's own entry over "*": a "*" setting reaches a table exactly when it has no entry of its own |
| Settings.AllowedValues | tkinter_1.py:1198 | only "fixed" mode keeps values; each kept value is non-empty, comma-free and stripped |
| Settings.AllowedValuesRoundTrip | tkinter_1.py:1198 | clean values joined with "," and saved back read back as the same list |
| Settings.PropagateWildcard | tkinter_1.py:1202-1210 | a table gets the policy iff it has the column and no own policy for it; existing entries are never changed; nothing else is added |
| Settings.WildcardSaveResolution | tkinter_1.py:1196-1210 | after saving under "*", each table resolves to its old override if it had one, else to the new policy |
| Settings.TableSaveIsLocal | tkinter_1.py:1196-1201 | saving under a table name changes the resolved policy of that one (table, column) only |
| Settings.SaveStandardization | tkinter_1.py:1196-1210 | the saved (table, column) entry holds the new policy; every other existing entry keeps its value; the only entries added are for that column, under the table itself or, for "*", under tables whose schema has the column |
| Settings.SaveStandardizationForm | tkinter_1.py:1190-1211 | after saving the form every listed column has a policy entry for the table; no existing entry disappears; types and column selections are untouched |
| Settings.SaveStandardizationFrame | tkinter_1.py:1196-1210 | saving one column's policy never touches another column's entries |
| Settings.SaveFormKeepsUnlisted | tkinter_1.py:1190-1211 | saving the whole form leaves columns it does not list exactly as they were |
| Settings.SaveFormSetsListed | tkinter_1.py:1190-1211 | after saving the form, each listed column resolves to the policy typed for it |
| Settings.DropTablePolicies | tkinter_1.py:396-402 | the dropped table's display, type and policy entries are gone; every other table's are unchanged |
| Settings.DroppedTableFallsBack | tkinter_1.py:82-103 | after a drop, the table resolves every lookup the way the "*" entry does |
| Text.Strip | tkinter_1.py:1836-1838 | the result is the infix of the text that starts after its leading whitespace and is followed only by whitespace; it has no whitespace at either end, and is empty iff the text was all whitespace |
| Text.StripKeepsNonSpace | tkinter_1.py:1836-1838 | stripping never loses a non-whitespace character |
| Text.StripIdempotent | tkinter_1.py:1836-1838 | stripping twice is stripping once |
| Text.JoinSplit | tkinter_1.py:1198 | joining the pieces of a split with the separator gives back the text |
| Text.SplitJoin | tkinter_1.py:1198 | splitting the join of separator-free pieces gives back the pieces |
| Numerals.IntToTextRoundTrip | tkinter_1.py:365-368 | `int(str(n)) == n` for every integer |
| Numerals.CommaIsNeverFloat | tkinter_1.py:1746-1752 | a text containing a comma is neither an int nor a float literal |
| Numerals.IntTextIsFloatText | tkinter_1.py:1739-1754 | every int literal is also a float literal with the same value |
| Dates.ParseDate | tkinter_1.py:1759 | every accepted text names a real calendar date in years 1 to 9999 |
| Dates.ParseFormatDate | tkinter_1.py:1759 | a date written as dd-mm-yyyy parses back to itself |
| Validation.ValidateValue | tkinter_1.py:1735-1769 | success returns the value unchanged, and happens iff the type accepts it and the policy accepts it; a type failure reports a type error |
| Validation.EmptyValueOutcome | tkinter_1.py:1742-1766 | "" passes every type check and fails only a fixed policy outside an initial insert |
| Validation.CommaRejectedInFloatColumns | tkinter_1.py:1746-1752 | a float column rejects a comma with the dedicated message, and `float()` would reject it as well |
| Validation.FixedColumnsHoldAllowedValues | tkinter_1.py:1762-1768 | in a fixed column a non-empty value passes iff it is one of the allowed values |
| RecordStore.InsertRow | tkinter_1.py:331-359 | it succeeds iff the table exists, the id is new and every column exists; a taken non-empty id raises the duplicate error; success adds exactly that row and exactly one INSERT entry; failure changes nothing |
| RecordStore.UpdateCell | tkinter_1.py:306-329 | it succeeds iff the table and column exist and the id cell is not moved onto a taken id; only the named cell changes, and writing the id cell moves the row to its new key; a missing row leaves the table as it was; exactly one UPDATE entry is logged, with the pre-state value (None for a missing row) and the new value |
| RecordStore.DeleteRow | tkinter_1.py:361-388 | the row with the id is gone; a DELETE entry with the full old row is logged iff the row existed |
| RecordStore.DeleteKey | tkinter_1.py:365-368 | a numeric-looking id is matched as `str(int(rowid))`, an int literal with the same value; other ids are matched as given; ints beyond 64 bits raise, and nothing else does |
| RecordStore.DeleteRowAsWritten | tkinter_1.py:361-388 | removes and logs the row whose id is the matched key, not necessarily the one asked for |
| RecordStore.PaddedIdDeletesAnotherRow | tkinter_1.py:365-381 | deleting "007" removes row "7" and leaves "007" |
| RecordStore.DeleteAsWrittenExactOnNonNumericIds | tkinter_1.py:365-368 | for an id that is not an integer literal, the code deletes exactly the row asked for |
| RecordStore.LookupsTrackMutations | tkinter_1.py:275-304 | `get_table_columns` and `table_has_id` see a successful insert's id and no longer see a deleted one, while every other id and the column list read as before; after a drop the table has no columns and no ids |
| RecordStore.DropTable | tkinter_1.py:390-413 | the table is gone, others are unchanged, one DROP_TABLE entry is logged, and its settings are forgotten |
| RecordStore.InsertDeleteDropPreserveWellFormed | tkinter_1.py:331-413 | insert, delete and drop keep every row under its own id and within its table's columns |
| RecordStore.UpdatePreservesWellFormed | tkinter_1.py:306-329 | an update, even of the id cell, keeps rows under their own id |
| RecordStore.InsertThenDeleteRestores | tkinter_1.py:331-388 | deleting a just-inserted row restores the tables; the log keeps both entries |
| RecordStore.UpdateThenRevertRestores | tkinter_1.py:306-329 | writing back the old value undoes an update; the log keeps both entries |
| Forms.FormValues | tkinter_1.py:1832-1838 | the form's values hold exactly the table's columns, each the stripped text typed for it |
| Forms.MissingRequired | tkinter_1.py:1840-1844 | lists exactly the columns that are required and blank, as a subsequence of the table's columns, so in column order |
| Forms.FormCheck | tkinter_1.py:1827-1853 | the checks before validation pass iff a table is chosen, no required column is blank, the id is non-empty and the id is new; the refusal reported is the first that applies in the code's order: no table, then the missing required columns (exactly those, in column order), then the empty id, then the taken id |
| Forms.ValidateThenInsert | tkinter_1.py:1854-1867 | the form inserts iff every value validates and `insert_row` accepts the row; a failing value is refused with the first failing column and its error, and otherwise a refusal reports `insert_row`'s error; a refusal changes nothing |
| Forms.FirstInvalid | tkinter_1.py:1854-1858 | there is none iff every column passes initial validation; otherwise the one reported is the first column, in form order, that fails, and it comes with that column's error |
| Forms.AddRow | tkinter_1.py:1826-1867 | it inserts iff the table is chosen, no required column is blank, the id is non-empty and new, and every value validates; the inserted row is the stripped form values; the refusal reported is the first that applies: no table, the missing required columns, the empty id, the taken id, then the first column that fails validation with its error; any refusal changes nothing |
| Forms.SubmitForm | tkinter_1.py:1828-1867 | for the chosen table's columns and their form values, the same refusal order and the same insert as `AddRow` |
| Forms.AddedRowRespectsPolicies | tkinter_1.py:1840-1861 | a row the form added has no blank required column and no fixed column outside its allowed values |
| Forms.MovedValues | tkinter_1.py:2001-2008 | the mapped row covers exactly the destination's columns, carries the source values or "" and the effective id |
| Forms.FillIn | tkinter_1.py:1973-1980 | the dialog's stripped entries replace exactly the listed columns |
| Forms.MoveValues | tkinter_1.py:2009-2019 | the inserted values are the mapped row, with a non-blank dialog entry for every blank required column |
| Forms.EffectiveId | tkinter_1.py:1993-1995 | a blank new-id field keeps the row's id; otherwise the id is the stripped, non-blank entry |
| Forms.MoveRow | tkinter_1.py:1989-2027 | no destination, a taken effective id, a cancel or a failed insert leave the store unchanged; a cancel happens iff the dialog was needed and dismissed; once past those, the move fails iff `insert_row` of the moved values fails, and otherwise ends Moved iff `delete_row` at the source succeeds, with the store that insert then delete give |
| Forms.TransferRow | tkinter_1.py:2020-2027 | the insert comes first and a failed insert changes nothing; after it, the move is complete iff the delete succeeds, and a failed delete keeps the inserted row |
| Forms.MoveConservesRows | tkinter_1.py:1989-2027 | a completed move takes the row out of the source, puts the mapped row in the destination, and conserves the total row count |
| Forms.MovedRowContents | tkinter_1.py:2000-2019 | an answered move stores the effective id, the source's cells for columns not asked for, and a non-blank entry for every column that was |
| Forms.InsertThenDelete | tkinter_1.py:2020-2027 | inserting at the destination and then deleting at another table changes exactly those two rows and keeps the pair's row total |
| Importer.RowDict | tkinter_1.py:494 | every table column gets the file's cell, or "" where the file has none |
| Importer.ApplyRow | tkinter_1.py:495-542 | a present non-empty id updates every other column of that row; any other id is inserted; a second blank id is refused |
| Importer.ImportLoop | tkinter_1.py:493-542 | without error every row counts once as inserted or updated and logs one entry; a failure logs fewer entries than rows; every entry is an import entry for the target table; `updated` is the number of update entries logged and `inserted` the number of the others |
| Importer.ImportEntriesAt | tkinter_1.py:512-542 | the logged entries are import entries for the target table, stated position by position |
| Importer.LoopStopsAtFirstRefusedRow | tkinter_1.py:493-547 | a failed batch stops at row n, where n is the number of entries logged: the first n rows all apply and log exactly those entries, and row n is refused with the reported error |
| Importer.LoopKeys | tkinter_1.py:495-542 | a completed loop's ids are the old ids plus the incoming ids |
| Importer.LoopKeepsUntouched | tkinter_1.py:495-542 | a completed loop leaves each row no incoming id names unchanged |
| Importer.LoopLastWriteWins | tkinter_1.py:495-542 | for each incoming id, the non-id cells of the last row carrying it are the ones stored |
| Importer.ImportRows | tkinter_1.py:487-551 | the log only grows, and only by import entries for the target table; a failure restores the tables but keeps the logged entries; success logs one entry per row, reports as updated the number of update entries it logged and as inserted the others, and changes only the target table; a missing table refuses a non-empty file |
| Importer.CommittedImportContents | tkinter_1.py:493-551 | a committed import holds the old ids plus the incoming ones; rows no incoming id names are unchanged; every incoming id carries the non-id cells of its last row |
| Importer.FailedImportLogsAppliedPrefix | tkinter_1.py:512-551 | a failed import restores the tables, and its log grows by exactly the entries of the rows before the refused row, which is refused with the reported error |
| Importer.ImportLoopPreservesWellFormed | tkinter_1.py:493-542 | the upsert loop keeps every row under its own id |
| Importer.ImportPreservesWellFormed | tkinter_1.py:487-551 | a committed or rolled-back import keeps the store well formed |
| Importer.RolledBackImportStaysLogged | tkinter_1.py:527-547 | a batch that fails on its second row leaves the first row's INSERT entry in the log |
| Importer.ImportRowsAtomic | tkinter_1.py:487-551 | a failed import leaves the store and the log unchanged; the outcome equals the code's |
| Importer.AtomicImportAgreesOnCommit | tkinter_1.py:487-551 | the corrected import differs from the code only in a failed batch's log |
| Schedule.NormalizeQuotes | tkinter_1.py:1391 | curly and single quotes become straight double quotes; every other character is kept |
| Schedule.DecodeTuplas | tkinter_1.py:1377-1397 | None, blank and "nan" give []; a list is returned unchanged; otherwise any result is the items of a list or tuple literal, and the fallback is tried only when the first evaluation raises |
| Schedule.NormalizedSequenceLiteralDecodes | tkinter_1.py:1388-1393 | when the first evaluation raises and the quote-normalized text is a list or tuple literal, the cell decodes to its items |
| Schedule.SequenceLiteralDecodes | tkinter_1.py:1386-1388 | a text holding a list or tuple literal decodes to its items |
| Schedule.NonSequenceLiteralDecodesEmpty | tkinter_1.py:1386-1397 | a literal of another kind gives [] without trying the fallback |
| Ordering.Insert | tkinter_1.py:1523-1527 | inserting into a sorted sequence keeps it sorted and adds exactly the new element |
| Ordering.SortSet | tkinter_1.py:1523-1527 | `sorted(s)` is strictly increasing and holds exactly the elements of s |
| Ordering.TextOrderIsStrictTotal | tkinter_1.py:1525-1528 | string comparison is a strict total order |
| Aggregation.ToFloat | tkinter_1.py:1488-1491 | `float()` keeps a float, reads an int as its exact value (see "## Left out"), maps a bool to 1.0 or 0.0, reads a text iff it is a finite float literal and then gives that literal's value, and raises on None and containers |
| Aggregation.Extract | tkinter_1.py:1487-1495 | an installment is read iff the item is a list or tuple of at least 3 with a float-like payment, a valid date text and, when present, a float-like index 5; the amortization is index 5, or 0 without one |
| Aggregation.ItemInstallments | tkinter_1.py:1486-1495 | one cell's items give at most one installment each, every one tagged with the table's bank and dated on a real calendar date |
| Aggregation.CellInstallments | tkinter_1.py:1482-1495 | every installment of a table's rows is tagged with its bank and has a real calendar date |
| Aggregation.Installments | tkinter_1.py:1478-1495 | every installment of the selected tables has a real calendar date |
| Aggregation.ItemInstallmentsExact | tkinter_1.py:1486-1495 | the installments read from one cell's items are exactly those of the items that parse, each tagged with the table's bank; each appears once for every item that reads as it |
| Aggregation.CellInstallmentsExact | tkinter_1.py:1482-1495 | a table's installments are exactly those of its decoded `tuplas` cells; as a multiset, they are the sum over the cells of each cell's installments |
| Aggregation.InstallmentsExact | tkinter_1.py:1478-1495 | the selected tables' installments are exactly those of the tables that have a `tuplas` column; as a multiset, they are the sum over those tables of each table's installments |
| Aggregation.ItemInstallmentsCount | tkinter_1.py:1486-1495 | an installment of the table's bank appears as many times as there are items that read as it, and one of another bank never appears |
| Aggregation.ItemInstallmentsAppend | tkinter_1.py:1486-1495 | reading the items of two lists one after the other gives the first list's installments followed by the second's |
| Aggregation.ParsePeriod | tkinter_1.py:1464-1476 | a period is accepted iff all four fields are int literals and their values make both `datetime` calls valid; it starts on the 1st of the typed start month and year, and ends on the 1st of January of the next year for end month 12, and otherwise on the 1st of the month after the end month |
| Aggregation.PeriodTextsRoundTrip | tkinter_1.py:1464-1473 | the period typed as the texts of four integers parses to the window those integers make |
| Aggregation.TwoDigitsIntValue | tkinter_1.py:1428-1465 | `int` of a zero-padded month text, as the month lists offer "01" to "12", gives back the month |
| Aggregation.ChosenPeriodRoundTrip | tkinter_1.py:1428-1473 | the period chosen as the zero-padded month texts and the year texts the combo boxes offer parses to the window of those numbers |
| Aggregation.MakePeriod | tkinter_1.py:1464-1473 | the window starts on the 1st of the start month and ends on the 1st of the month after the end month, with the December rollover; invalid values give none |
| Aggregation.PeriodCoversWholeMonths | tkinter_1.py:1464-1498 | a date is in the window iff its month lies between the start and end months, inclusive |
| Aggregation.AggregateMonthly | tkinter_1.py:1478-1517 | each accumulated cell equals the reference bucket sum; the cells, months and groups present are exactly the active ones |
| Aggregation.BuildMatrix | tkinter_1.py:1523-1529 | one row per month and one value per group, 0.0 where the bucket is absent |
| Aggregation.CellsAreBucketTotals | tkinter_1.py:1526-1529 | every matrix cell, filled or not, equals the reference bucket sum |
| Aggregation.ChartData | tkinter_1.py:1519-1530 | no selected installment gives NoData; otherwise sorted active months and groups with every cell equal to its bucket sum |
| Aggregation.GenerateGraph | tkinter_1.py:1453-1530 | no bank selected iff no table is given, no company selected iff tables are given but no company; with both given, an invalid period iff the period does not parse, and otherwise the chart of the selected installments, or no data iff nothing is selected |
| Aggregation.InactiveBucketIsZero | tkinter_1.py:1526-1528 | a bucket no selected installment falls in sums to 0.0 |
| Aggregation.InterestBucketIsPaidMinusAmortization | tkinter_1.py:1488-1517 | per bucket, the juros chart equals the parcelas chart minus the amortizacao chart |
| Aggregation.BucketsAddUpOverBanks | tkinter_1.py:1478-1517 | selecting more tables adds their sums to every bucket |
| Aggregation.SingleGroupForTudo | tkinter_1.py:1500-1506 | with the "tudo" grouping the only group is "TOTAL" |

## Left out

- Aggregation.ItemInstallments: its own contract does not say how often each installment appears. Aggregation.ItemInstallmentsExact and Aggregation.ItemInstallmentsCount state it instead, as a count in the function's own contract would burden every proof that unfolds the function.
- Aggregation.CellInstallments: its own contract does not give its installments with multiplicity. Aggregation.CellInstallmentsExact states it as a sum over the cells, for the same reason.
- Aggregation.Installments: its own contract does not give its installments with multiplicity. Aggregation.InstallmentsExact states it as a sum over the tables, for the same reason.
- Tk windows, dialogs, message boxes, scrolling, header sorting, help texts and the plotting with matplotlib and mplcursors are presentation only.
- Reading and writing the settings file (`Config.save`/`load`), `set_db_path`, backups, `mirror_db_to_excel`, exports, `format_number`, the report sums and means, and `run_update_script` are left out. They are file or process I/O, or float formatting.
- Audit entries carry no timestamp and no user name. A failure to write a log file is not modelled.
- SQL text, SQLite type affinity of non-id columns and the case-insensitivity of column names are left out. Cells are text, and a NULL cell is an absent column.
- RecordStore.InsertRow: requires an `id` key in the values. Every caller supplies one, so a NULL id is not modelled.
- Importer.ImportRows: requires the target table to have an `id` column, as every table the tool creates does. Reading the file, the "nan" text pandas gives empty cells, and the `mirror_db_to_excel` call after the commit are left out.
- Forms.MoveRow: the source row arrives as text cells, with NaN already shown as "". pandas' numeric cell types are not modelled.
- Forms.MoveRow uses the exact-match `RecordStore.DeleteRow`, not `delete_row` as written. See Findings.
- Aggregation.ToFloat: "inf", "infinity" and "nan" texts are treated as unreadable. In Python they give non-finite floats that would enter the sums. Floating-point rounding and the double range are not modelled either: an int beyond the double range reads as its exact value, where Python's `float()` raises OverflowError and the installment is skipped, and a finite literal beyond the range such as "1e400" reads as its exact value, where Python gives inf.
- Aggregation.Extract: a dict item is treated as opaque and skipped. In Python a dict with keys 0, 1 and 2 could be read.
- `_update_graph_companies_and_range`, which fills the company list and the default period, is left out. The aggregation takes the selected tables, companies and period texts as inputs.
- The chosen metric and grouping are datatypes with the three values the radio buttons offer. So the source's fall-through for any other metric text cannot occur.
- `ast.literal_eval` and `str()` of non-string values are supplied by the caller (`Schedule.Runtime`). They are not parsed or rendered in the model.
- Numerals.IsIntText: digits are the ASCII digits only. Python's `int()` also accepts the other Unicode decimal digits.
- Numerals.ParseFloatText: digits are the ASCII digits only. Python's `float()` also accepts the other Unicode decimal digits.
- Dates.ParseDate: day, month and year digits are the ASCII digits only. The `strptime` pattern also matches other Unicode decimal digits.

## Findings

| source | as written | input that shows it | evidently intended | confidence | as-written member | corrected member |
|---|---|---|---|---|---|---|
| tkinter_1.py:365-381 | `delete_row` queries with `int(rowid)` when the id looks numeric. The TEXT `id` column then compares it as its canonical decimal text | a table holding ids "007" and "7"; `delete_row(t, "007")` deletes and logs row "7" and leaves "007" | delete the row whose id is exactly `rowid` | medium, not executed | RecordStore.DeleteRowAsWritten, RecordStore.PaddedIdDeletesAnotherRow | RecordStore.DeleteRow |
| tkinter_1.py:512-547 | import audit files are written before `con.commit()`, and the rollback cannot remove them | a table holding a blank id; importing rows with ids "a" then "" rolls back, but the log keeps an IMPORT_INSERT for "a" | audit entries only for committed changes | medium, not executed | Importer.ImportRows, Importer.RolledBackImportStaysLogged | Importer.ImportRowsAtomic |

=== FILE: aggregation.dfy ===
/**
 * The data side of `_generate_graph`: read every installment of the
 * selected loan tables, keep those inside the chosen period whose company
 * is selected, sum the chosen metric per (year, month) and group, and lay
 * the sums out as a dense matrix with one row per active month and one
 * column per active group.  Fetching the tables and drawing the chart are
 * not modelled: the tables come in as `BankTable` values.
 */
module Aggregation {
  import opened Wrappers
  import Text
  import opened Numerals
  import opened Dates
  import opened Schedule
  import opened Ordering

  datatype Metric = Parcelas | Amortizacao | Juros
  datatype Grouping = PorEmpresa | PorBanco | Tudo

  /** The single group `Tudo` puts every installment in. */
  const TotalGroup: string := "TOTAL"

  /** The fields the chart reads from one installment tuple. */
  datatype Installment = Installment(paid: real, date: Date, company: string, amortization: real)

  /** `juros = valor_pago - amortizacao`. */
  function Interest(e: Installment): real {
    e.paid - e.amortization
  }

  /**
   * `float(v)`, None where it raises.  A text reading "inf", "infinity" or
   * "nan" also gives None: the non-finite floats are not modelled.
   */
  function ToFloat(v: PyValue): (r: Option<real>)
    ensures v.PyFloat? ==> r == Some(v.x)
    ensures v.PyInt? ==> r == Some(v.i as real)
    ensures v.PyNone? || v.PyList? || v.PyTuple? || v.PyOpaque? ==> r.None?
    ensures v.PyStr? ==> (r.Some? <==> ParseFloatText(v.s).Finite?)
    ensures v.PyStr? && r.Some? ==> ParseFloatText(v.s) == Finite(r.value)
    ensures v.PyBool? ==> r == Some(if v.b then 1.0 else 0.0)
  {
    match v
    case PyBool(b) => Some(if b then 1.0 else 0.0)
    case PyInt(i) => Some(i as real)
    case PyFloat(x) => Some(x)
    case PyStr(s) => (match ParseFloatText(s) case Finite(x) => Some(x) case _ => None)
    case _ => None
  }

  /** `float(v) if v is not None else 0.0`. */
  function FloatOrZero(v: PyValue): Option<real> {
    if v.PyNone? then Some(0.0) else ToFloat(v)
  }

  /** `str(v)`. */
  function Str(v: PyValue, rt: Runtime): string {
    if v.PyStr? then v.s else rt.render(v)
  }

  /**
   * The body of the `try` in the inner loop: payment from index 0, date
   * text from index 1, company from index 2 and amortization from index 5.
   * The field description of the `tuplas` column (tkinter_1.py:664-667)
   * places juros at index 5 and amortização at index 6; the aggregation
   * reads index 5 all the same, and so does this model.  A string item
   * is indexable too, but its one-character date never parses, so only
   * lists and tuples can yield an installment.
   */
  function Extract(t: PyValue, rt: Runtime): (r: Option<Installment>)
    ensures r.Some? <==>
      && IsSequence(t) && |t.items| >= 3
      && FloatOrZero(t.items[0]).Some?
      && t.items[1].PyStr? && ParseDate(t.items[1].s).Some?
      && (|t.items| > 5 ==> FloatOrZero(t.items[5]).Some?)
    ensures r.Some? ==>
      && ValidDate(r.value.date)
      && Some(r.value.date) == ParseDate(t.items[1].s)
      && Some(r.value.paid) == FloatOrZero(t.items[0])
      && r.value.company == Str(t.items[2], rt)
      && (|t.items| > 5 ==> Some(r.value.amortization) == FloatOrZero(t.items[5]))
      && (|t.items| <= 5 ==> r.value.amortization == 0.0)
  {
    if !IsSequence(t) || |t.items| < 3 then None
    else
      var xs := t.items;
      var paid := FloatOrZero(xs[0]);
      var amortization := if |xs| > 5 then FloatOrZero(xs[5]) else Some(0.0);
      var date := if xs[1].PyStr? then ParseDate(xs[1].s) else None;
      if paid.None? || amortization.None? || date.None? then None
      else Some(Installment(paid.value, date.value, Str(xs[2], rt), amortization.value))
  }

  /** A selected table as `fetch_table` returns it: whether it has a `tuplas` column, and that column's cells. */
  datatype BankTable = BankTable(bank: string, hasTuplas: bool, cells: seq<Cell>)

  /** An installment together with the table it was read from. */
  datatype Sourced = Sourced(bank: string, item: Installment)

  /** The installments of a list of schedule items, in order, the ones that fail extraction skipped. */
  function ItemInstallments(bank: string, items: seq<PyValue>, rt: Runtime): (r: seq<Sourced>)
    ensures |r| <= |items|
    ensures forall k :: 0 <= k < |r| ==> r[k].bank == bank && ValidDate(r[k].item.date)
  {
    if |items| == 0 then []
    else
      (match Extract(items[0], rt) case Some(e) => [Sourced(bank, e)] case None => [])
      + ItemInstallments(bank, items[1..], rt)
  }

  function CellInstallments(bank: string, cells: seq<Cell>, rt: Runtime): (r: seq<Sourced>)
    ensures forall k :: 0 <= k < |r| ==> r[k].bank == bank && ValidDate(r[k].item.date)
  {
    if |cells| == 0 then []
    else ItemInstallments(bank, DecodeTuplas(cells[0], rt), rt) + CellInstallments(bank, cells[1..], rt)
  }

  /** Every installment of the selected tables, in table, row and item order; a table without `tuplas` adds none. */
  function Installments(tables: seq<BankTable>, rt: Runtime): (r: seq<Sourced>)
    ensures forall k :: 0 <= k < |r| ==> ValidDate(r[k].item.date)
  {
    if |tables| == 0 then []
    else
      (if tables[0].hasTuplas then CellInstallments(tables[0].bank, tables[0].cells, rt) else [])
      + Installments(tables[1..], rt)
  }

  /** The sum of a sequence of multisets. */
  function BagSum(bags: seq<multiset<Sourced>>): multiset<Sourced> {
    if |bags| == 0 then multiset{} else bags[0] + BagSum(bags[1..])
  }

  /** What each schedule item contributes: its installment once, or nothing. */
  function ItemBags(bank: string, items: seq<PyValue>, rt: Runtime): (bags: seq<multiset<Sourced>>)
    ensures |bags| == |items|
    ensures forall j :: 0 <= j < |items| ==>
      bags[j] == (match Extract(items[j], rt) case Some(e) => multiset{Sourced(bank, e)} case None => multiset{})
  {
    seq(|items|, j requires 0 <= j < |items| =>
      match Extract(items[j], rt) case Some(e) => multiset{Sourced(bank, e)} case None => multiset{})
  }

  /** What each cell contributes: the installments of its decoded schedule. */
  function CellBags(bank: string, cells: seq<Cell>, rt: Runtime): (bags: seq<multiset<Sourced>>)
    ensures |bags| == |cells|
    ensures forall i :: 0 <= i < |cells| ==> bags[i] == multiset(ItemInstallments(bank, DecodeTuplas(cells[i], rt), rt))
  {
    seq(|cells|, i requires 0 <= i < |cells| => multiset(ItemInstallments(bank, DecodeTuplas(cells[i], rt), rt)))
  }

  /** What each selected table contributes: its cells' installments, or nothing without a `tuplas` column. */
  function TableBags(tables: seq<BankTable>, rt: Runtime): (bags: seq<multiset<Sourced>>)
    ensures |bags| == |tables|
    ensures forall i :: 0 <= i < |tables| ==>
      bags[i] == (if tables[i].hasTuplas then multiset(CellInstallments(tables[i].bank, tables[i].cells, rt)) else multiset{})
  {
    seq(|tables|, i requires 0 <= i < |tables| =>
      if tables[i].hasTuplas then multiset(CellInstallments(tables[i].bank, tables[i].cells, rt)) else multiset{})
  }

  /** Every schedule item adds its installment once: the list holds exactly the items' contributions. */
  lemma {:induction false} ItemInstallmentsBag(bank: string, items: seq<PyValue>, rt: Runtime)
    ensures multiset(ItemInstallments(bank, items, rt)) == BagSum(ItemBags(bank, items, rt))
    decreases |items|
  {
    if |items| > 0 {
      assert ItemBags(bank, items, rt)[1..] == ItemBags(bank, items[1..], rt);
      ItemInstallmentsBag(bank, items[1..], rt);
    }
  }

  /** One step of the item loop: the first item's installment, if any, then the rest. */
  lemma ItemInstallmentsStep(bank: string, items: seq<PyValue>, rt: Runtime)
    requires |items| > 0
    ensures ItemInstallments(bank, items, rt) ==
      (match Extract(items[0], rt) case Some(e) => [Sourced(bank, e)] case None => [])
      + ItemInstallments(bank, items[1..], rt)
  {
  }

  lemma {:induction false} ItemInstallmentsAppend(bank: string, a: seq<PyValue>, b: seq<PyValue>, rt: Runtime)
    ensures ItemInstallments(bank, a + b, rt) == ItemInstallments(bank, a, rt) + ItemInstallments(bank, b, rt)
    decreases |a|
  {
    if |a| > 0 {
      var ab := a + b;
      var head := match Extract(a[0], rt) case Some(e) => [Sourced(bank, e)] case None => [];
      var rest := ItemInstallments(bank, a[1..], rt);
      assert ab[0] == a[0];
      assert ab[1..] == a[1..] + b;
      ItemInstallmentsStep(bank, ab, rt);
      ItemInstallmentsStep(bank, a, rt);
      ItemInstallmentsAppend(bank, a[1..], b, rt);
      assert ItemInstallments(bank, ab, rt) == head + (rest + ItemInstallments(bank, b, rt));
      assert ItemInstallments(bank, a, rt) == head + rest;
    } else {
      assert a + b == b;
    }
  }

  /** The indices of the items that read as installment `v`. */
  function ItemsReadingAs(items: seq<PyValue>, rt: Runtime, v: Installment): set<int> {
    set j | 0 <= j < |items| && Extract(items[j], rt) == Some(v)
  }

  lemma ItemsReadingAsSnoc(a: seq<PyValue>, last: PyValue, rt: Runtime, v: Installment)
    ensures |ItemsReadingAs(a + [last], rt, v)| ==
      |ItemsReadingAs(a, rt, v)| + (if Extract(last, rt) == Some(v) then 1 else 0)
  {
    var all := ItemsReadingAs(a + [last], rt, v);
    var prefix := ItemsReadingAs(a, rt, v);
    assert |a| !in prefix;
    if Extract(last, rt) == Some(v) {
      assert all == prefix + {|a|};
    } else {
      assert all == prefix;
    }
  }

  lemma SingleItemCount(bank: string, item: PyValue, rt: Runtime, x: Sourced)
    ensures multiset(ItemInstallments(bank, [item], rt))[x] ==
      if x.bank == bank && Extract(item, rt) == Some(x.item) then 1 else 0
  {
    assert [item][1..] == [];
  }

  /**
   * An installment appears once for every schedule item that reads as it,
   * so two equal items are counted twice.
   */
  lemma {:induction false} ItemInstallmentsCount(bank: string, items: seq<PyValue>, rt: Runtime, x: Sourced)
    ensures multiset(ItemInstallments(bank, items, rt))[x] ==
      if x.bank == bank then |ItemsReadingAs(items, rt, x.item)| else 0
    decreases |items|
  {
    if |items| == 0 {
      assert ItemsReadingAs(items, rt, x.item) == {};
    } else {
      var a := items[..|items| - 1];
      var last := items[|items| - 1];
      assert items == a + [last];
      var front := ItemInstallments(bank, a, rt);
      var back := ItemInstallments(bank, [last], rt);
      assert ItemInstallments(bank, items, rt) == front + back by {
        ItemInstallmentsAppend(bank, a, [last], rt);
      }
      assert multiset(front + back)[x] == multiset(front)[x] + multiset(back)[x];
      ItemInstallmentsCount(bank, a, rt, x);
      SingleItemCount(bank, last, rt, x);
      ItemsReadingAsSnoc(a, last, rt, x.item);
    }
  }

  /** Every cell adds all of its schedule's installments: the column's list is the sum over its cells. */
  lemma {:induction false} CellInstallmentsBag(bank: string, cells: seq<Cell>, rt: Runtime)
    ensures multiset(CellInstallments(bank, cells, rt)) == BagSum(CellBags(bank, cells, rt))
    decreases |cells|
  {
    if |cells| > 0 {
      assert CellBags(bank, cells, rt)[1..] == CellBags(bank, cells[1..], rt);
      CellInstallmentsBag(bank, cells[1..], rt);
    }
  }

  /** Every selected table with a `tuplas` column adds all of its installments: the list is the sum over the tables. */
  lemma {:induction false} InstallmentsBag(tables: seq<BankTable>, rt: Runtime)
    ensures multiset(Installments(tables, rt)) == BagSum(TableBags(tables, rt))
    decreases |tables|
  {
    if |tables| > 0 {
      var head := if tables[0].hasTuplas then CellInstallments(tables[0].bank, tables[0].cells, rt) else [];
      assert TableBags(tables, rt)[1..] == TableBags(tables[1..], rt);
      InstallmentsBag(tables[1..], rt);
      assert Installments(tables, rt) == head + Installments(tables[1..], rt);
      assert TableBags(tables, rt)[0] == multiset(head);
    }
  }

  /**
   * Nothing is invented or lost: an installment is produced exactly when
   * some schedule item extracts to it.
   */
  lemma {:induction false} ItemInstallmentsMembers(bank: string, items: seq<PyValue>, rt: Runtime)
    ensures forall j :: 0 <= j < |items| && Extract(items[j], rt).Some? ==>
      Sourced(bank, Extract(items[j], rt).value) in ItemInstallments(bank, items, rt)
    ensures forall x :: x in ItemInstallments(bank, items, rt) ==>
      x.bank == bank && exists j :: 0 <= j < |items| && Extract(items[j], rt) == Some(x.item)
  {
    if |items| > 0 {
      ItemInstallmentsMembers(bank, items[1..], rt);
      var rest := ItemInstallments(bank, items[1..], rt);
      forall j | 0 <= j < |items| && Extract(items[j], rt).Some?
        ensures Sourced(bank, Extract(items[j], rt).value) in ItemInstallments(bank, items, rt)
      {
        if j > 0 { assert items[1..][j - 1] == items[j]; }
      }
      forall x | x in ItemInstallments(bank, items, rt)
        ensures x.bank == bank && exists j :: 0 <= j < |items| && Extract(items[j], rt) == Some(x.item)
      {
        if x in rest {
          var j :| 0 <= j < |items[1..]| && Extract(items[1..][j], rt) == Some(x.item);
          assert items[j + 1] == items[1..][j];
        } else {
          assert Extract(items[0], rt) == Some(x.item);
        }
      }
    }
  }

  /** The installments of a column are those of its cells' decoded schedules, and only those. */
  lemma {:induction false} CellInstallmentsMembers(bank: string, cells: seq<Cell>, rt: Runtime)
    ensures forall x :: x in CellInstallments(bank, cells, rt) <==>
      exists i :: 0 <= i < |cells| && x in ItemInstallments(bank, DecodeTuplas(cells[i], rt), rt)
  {
    if |cells| > 0 {
      CellInstallmentsMembers(bank, cells[1..], rt);
      var head := ItemInstallments(bank, DecodeTuplas(cells[0], rt), rt);
      var rest := CellInstallments(bank, cells[1..], rt);
      assert CellInstallments(bank, cells, rt) == head + rest;
      forall x | x in CellInstallments(bank, cells, rt)
        ensures exists i :: 0 <= i < |cells| && x in ItemInstallments(bank, DecodeTuplas(cells[i], rt), rt)
      {
        if x !in head {
          assert x in rest;
          var i :| 0 <= i < |cells[1..]| && x in ItemInstallments(bank, DecodeTuplas(cells[1..][i], rt), rt);
          assert cells[i + 1] == cells[1..][i];
        }
      }
      forall x, i | 0 <= i < |cells| && x in ItemInstallments(bank, DecodeTuplas(cells[i], rt), rt)
        ensures x in CellInstallments(bank, cells, rt)
      {
        if i > 0 { assert cells[1..][i - 1] == cells[i]; }
      }
    }
  }

  /** The installments read are those of the selected tables that have a `tuplas` column, and only those. */
  lemma {:induction false} InstallmentsMembers(tables: seq<BankTable>, rt: Runtime)
    ensures forall x :: x in Installments(tables, rt) <==>
      exists i :: 0 <= i < |tables| && tables[i].hasTuplas && x in CellInstallments(tables[i].bank, tables[i].cells, rt)
  {
    if |tables| > 0 {
      var t := tables[0];
      var head := if t.hasTuplas then CellInstallments(t.bank, t.cells, rt) else [];
      var rest := Installments(tables[1..], rt);
      assert Installments(tables, rt) == head + rest;
      forall x | x in Installments(tables, rt)
        ensures exists i :: 0 <= i < |tables| && tables[i].hasTuplas && x in CellInstallments(tables[i].bank, tables[i].cells, rt)
      {
        if !(t.hasTuplas && x in CellInstallments(t.bank, t.cells, rt)) {
          assert x in rest;
          InstallmentsMembers(tables[1..], rt);
          var i :| 0 <= i < |tables[1..]| && tables[1..][i].hasTuplas &&
            x in CellInstallments(tables[1..][i].bank, tables[1..][i].cells, rt);
          assert tables[i + 1] == tables[1..][i];
        }
      }
      forall x, i | 0 <= i < |tables| && tables[i].hasTuplas && x in CellInstallments(tables[i].bank, tables[i].cells, rt)
        ensures x in Installments(tables, rt)
      {
        if i > 0 {
          assert tables[1..][i - 1] == tables[i];
          assert x in rest by { InstallmentsMembers(tables[1..], rt); }
        }
      }
    }
  }

  /**
   * The installments of one cell's schedule, with multiplicity: each
   * installment of the table's bank appears once per item that extracts to
   * it, and nothing else appears.
   */
  lemma ItemInstallmentsExact(bank: string, items: seq<PyValue>, rt: Runtime)
    ensures forall j :: 0 <= j < |items| && Extract(items[j], rt).Some? ==>
      Sourced(bank, Extract(items[j], rt).value) in ItemInstallments(bank, items, rt)
    ensures forall x :: x in ItemInstallments(bank, items, rt) ==>
      x.bank == bank && exists j :: 0 <= j < |items| && Extract(items[j], rt) == Some(x.item)
    ensures forall x :: multiset(ItemInstallments(bank, items, rt))[x] ==
              (if x.bank == bank then |ItemsReadingAs(items, rt, x.item)| else 0)
  {
    ItemInstallmentsMembers(bank, items, rt);
    forall x
      ensures multiset(ItemInstallments(bank, items, rt))[x] ==
        (if x.bank == bank then |ItemsReadingAs(items, rt, x.item)| else 0)
    {
      ItemInstallmentsCount(bank, items, rt, x);
    }
  }

  /**
   * A column's installments, with multiplicity: the sum over its cells of
   * the installments of each cell's decoded schedule.
   */
  lemma CellInstallmentsExact(bank: string, cells: seq<Cell>, rt: Runtime)
    ensures forall x :: x in CellInstallments(bank, cells, rt) <==>
      exists i :: 0 <= i < |cells| && x in ItemInstallments(bank, DecodeTuplas(cells[i], rt), rt)
    ensures multiset(CellInstallments(bank, cells, rt)) == BagSum(CellBags(bank, cells, rt))
  {
    CellInstallmentsMembers(bank, cells, rt);
    CellInstallmentsBag(bank, cells, rt);
  }

  /**
   * The installments read, with multiplicity: the sum over the selected
   * tables of each `tuplas` table's installments, a table without that
   * column adding nothing.
   */
  lemma InstallmentsExact(tables: seq<BankTable>, rt: Runtime)
    ensures forall x :: x in Installments(tables, rt) <==>
      exists i :: 0 <= i < |tables| && tables[i].hasTuplas && x in CellInstallments(tables[i].bank, tables[i].cells, rt)
    ensures multiset(Installments(tables, rt)) == BagSum(TableBags(tables, rt))
  {
    InstallmentsMembers(tables, rt);
    InstallmentsBag(tables, rt);
  }

  /** The half-open interval `start_dt <= dt < end_dt`. */
  datatype Period = Period(start: Date, end: Date)

  /** The months and years for which both `datetime` calls of the period succeed. */
  predicate PeriodInRange(sm: int, sy: int, em: int, ey: int) {
    && 1 <= sm <= 12 && 1 <= sy <= 9999
    && (if em == 12 then 0 <= ey <= 9998 else 0 <= em <= 11 && 1 <= ey <= 9999)
  }

  /**
   * `datetime(sy, sm, 1)` and the first day of the month after the end
   * month, December rolling over to January of the next year; None where
   * `datetime` raises.
   */
  function MakePeriod(sm: int, sy: int, em: int, ey: int): (r: Option<Period>)
    ensures r.Some? <==> PeriodInRange(sm, sy, em, ey)
    ensures r.Some? ==> r.value.start == Date(sy, sm, 1)
    ensures r.Some? && em == 12 ==> r.value.end == Date(ey + 1, 1, 1)
    ensures r.Some? && em < 12 ==> r.value.end == Date(ey, em + 1, 1)
  {
    var start := Date(sy, sm, 1);
    var end := if em == 12 then Date(ey + 1, 1, 1) else Date(ey, em + 1, 1);
    if ValidDate(start) && ValidDate(end) then Some(Period(start, end)) else None
  }

  /** `int()` of the four period texts, then `MakePeriod`. */
  function ParsePeriod(smText: string, syText: string, emText: string, eyText: string): (r: Option<Period>)
    ensures r.Some? <==>
      && IsIntText(smText) && IsIntText(syText) && IsIntText(emText) && IsIntText(eyText)
      && PeriodInRange(IntValue(smText), IntValue(syText), IntValue(emText), IntValue(eyText))
    ensures r.Some? ==>
      && ValidDate(r.value.start) && ValidDate(r.value.end)
      && r.value.start.day == 1 && r.value.end.day == 1
      && r.value.start == Date(IntValue(syText), IntValue(smText), 1)
    ensures r.Some? && IntValue(emText) == 12 ==> r.value.end == Date(IntValue(eyText) + 1, 1, 1)
    ensures r.Some? && IntValue(emText) != 12 ==> r.value.end == Date(IntValue(eyText), IntValue(emText) + 1, 1)
  {
    if IsIntText(smText) && IsIntText(syText) && IsIntText(emText) && IsIntText(eyText) then
      MakePeriod(IntValue(smText), IntValue(syText), IntValue(emText), IntValue(eyText))
    else None
  }

  /** The period typed as the decimal texts of four integers is the period of those integers. */
  lemma PeriodTextsRoundTrip(sm: int, sy: int, em: int, ey: int)
    ensures ParsePeriod(IntToText(sm), IntToText(sy), IntToText(em), IntToText(ey)) == MakePeriod(sm, sy, em, ey)
  {
    IntToTextRoundTrip(sm);
    IntToTextRoundTrip(sy);
    IntToTextRoundTrip(em);
    IntToTextRoundTrip(ey);
  }

  /** `int(f"{n:02d}") == n`: the leading zero of a one-digit month does not change its value. */
  lemma TwoDigitsIntValue(n: int)
    requires 0 <= n < 100
    ensures IsIntText(TwoDigits(n))
    ensures IntValue(TwoDigits(n)) == n
  {
    var s := TwoDigits(n);
    Text.DigitIsNotSpace(s[0]);
    Text.DigitIsNotSpace(s[1]);
    Text.StripUnpadded(s);
    assert !IsSign(s[0]) && DigitPart(s);
    var high := s[..1];
    assert high[..0] == [];
    assert DigitsValue(high) == Text.DigitValue(s[0]);
    assert DigitsValue(s) == 10 * DigitsValue(high) + Text.DigitValue(s[1]);
  }

  /**
   * The period chosen in the combo boxes, months offered as "01" to "12"
   * and years as `str(y)`, is the period of those numbers.
   */
  lemma ChosenPeriodRoundTrip(sm: int, sy: int, em: int, ey: int)
    requires 1 <= sm <= 12 && 1 <= em <= 12
    ensures ParsePeriod(TwoDigits(sm), IntToText(sy), TwoDigits(em), IntToText(ey)) == MakePeriod(sm, sy, em, ey)
  {
    TwoDigitsIntValue(sm);
    IntToTextRoundTrip(sy);
    TwoDigitsIntValue(em);
    IntToTextRoundTrip(ey);
  }

  predicate InPeriod(p: Period, d: Date) {
    AtOrBefore(p.start, d) && Before(d, p.end)
  }

  function MonthOf(d: Date): (int, int) {
    (d.year, d.month)
  }

  /** The window covers exactly the months from the start month to the end month, both included. */
  lemma PeriodCoversWholeMonths(sm: int, sy: int, em: int, ey: int, d: Date)
    requires MakePeriod(sm, sy, em, ey).Some?
    requires ValidDate(d)
    ensures InPeriod(MakePeriod(sm, sy, em, ey).value, d) <==>
      !MonthBefore(MonthOf(d), (sy, sm)) && !MonthBefore((ey, em), MonthOf(d))
  {
  }

  /** The filters and choices of the chart form. */
  datatype Query = Query(period: Period, companies: seq<string>, metric: Metric, grouping: Grouping)

  predicate Selected(q: Query, x: Sourced) {
    InPeriod(q.period, x.item.date) && x.item.company in q.companies
  }

  function GroupOf(g: Grouping, x: Sourced): string {
    match g
    case PorEmpresa => x.item.company
    case PorBanco => x.bank
    case Tudo => TotalGroup
  }

  function Amount(m: Metric, e: Installment): real {
    match m
    case Parcelas => e.paid
    case Amortizacao => e.amortization
    case Juros => Interest(e)
  }

  /** `x` is selected and falls in bucket (`month`, `group`). */
  predicate InBucket(q: Query, x: Sourced, month: (int, int), group: string) {
    Selected(q, x) && MonthOf(x.item.date) == month && GroupOf(q.grouping, x) == group
  }

  /** The reference sum of one bucket: the chosen metric over the selected installments that fall in it. */
  function BucketTotal(xs: seq<Sourced>, q: Query, month: (int, int), group: string): real {
    if |xs| == 0 then 0.0
    else
      BucketTotal(xs[..|xs| - 1], q, month, group)
      + (if InBucket(q, xs[|xs| - 1], month, group) then Amount(q.metric, xs[|xs| - 1].item) else 0.0)
  }

  /** Some selected installment falls in bucket (`month`, `group`). */
  predicate BucketActive(xs: seq<Sourced>, q: Query, month: (int, int), group: string) {
    |xs| > 0 && (InBucket(q, xs[|xs| - 1], month, group) || BucketActive(xs[..|xs| - 1], q, month, group))
  }

  /** Some selected installment falls in `month`. */
  predicate MonthActive(xs: seq<Sourced>, q: Query, month: (int, int)) {
    |xs| > 0 &&
      ((Selected(q, xs[|xs| - 1]) && MonthOf(xs[|xs| - 1].item.date) == month) || MonthActive(xs[..|xs| - 1], q, month))
  }

  /** Some selected installment falls in `group`. */
  predicate GroupActive(xs: seq<Sourced>, q: Query, group: string) {
    |xs| > 0 &&
      ((Selected(q, xs[|xs| - 1]) && GroupOf(q.grouping, xs[|xs| - 1]) == group) || GroupActive(xs[..|xs| - 1], q, group))
  }

  /** An empty bucket sums to zero. */
  lemma {:induction false} InactiveBucketIsZero(xs: seq<Sourced>, q: Query, month: (int, int), group: string)
    requires !BucketActive(xs, q, month, group)
    ensures BucketTotal(xs, q, month, group) == 0.0
  {
    if |xs| > 0 { InactiveBucketIsZero(xs[..|xs| - 1], q, month, group); }
  }

  lemma ActiveAfterOneMore(ys: seq<Sourced>, x: Sourced, q: Query)
    ensures forall k :: MonthActive(ys + [x], q, k) <==>
      (Selected(q, x) && MonthOf(x.item.date) == k) || MonthActive(ys, q, k)
    ensures forall g :: GroupActive(ys + [x], q, g) <==>
      (Selected(q, x) && GroupOf(q.grouping, x) == g) || GroupActive(ys, q, g)
  {
    assert (ys + [x])[..|ys|] == ys;
  }

  /** The nested dictionary `agg` of the source: month, then group, then running sum. */
  type Buckets = map<(int, int), map<string, real>>

  /**
   * The accumulation loop: `agg[key][group] += metric` for every selected
   * installment, creating the entry at 0.0 first, and `groups.add(group)`.
   */
  method AggregateMonthly(xs: seq<Sourced>, q: Query) returns (agg: Buckets, groups: set<string>)
    ensures forall k, g :: k in agg && g in agg[k] ==> agg[k][g] == BucketTotal(xs, q, k, g)
    ensures forall k, g :: BucketActive(xs, q, k, g) <==> k in agg && g in agg[k]
    ensures forall k :: k in agg <==> MonthActive(xs, q, k)
    ensures forall g :: g in groups <==> GroupActive(xs, q, g)
  {
    agg := map[];
    groups := {};
    var i := 0;
    while i < |xs|
      invariant 0 <= i <= |xs|
      invariant forall k, g :: k in agg && g in agg[k] ==> agg[k][g] == BucketTotal(xs[..i], q, k, g)
      invariant forall k, g :: BucketActive(xs[..i], q, k, g) <==> k in agg && g in agg[k]
      invariant forall k :: k in agg <==> MonthActive(xs[..i], q, k)
      invariant forall g :: g in groups <==> GroupActive(xs[..i], q, g)
    {
      var x := xs[i];
      assert xs[..i + 1][..i] == xs[..i];
      assert xs[..i + 1][i] == x;
      assert xs[..i + 1] == xs[..i] + [x];
      ActiveAfterOneMore(xs[..i], x, q);
      if Selected(q, x) {
        var g := GroupOf(q.grouping, x);
        var key := MonthOf(x.item.date);
        groups := groups + {g};
        var row := if key in agg then agg[key] else map[];
        var current := if g in row then row[g] else 0.0;
        if g !in row {
          InactiveBucketIsZero(xs[..i], q, key, g);
        }
        agg := agg[key := row[g := current + Amount(q.metric, x.item)]];
      }
      i := i + 1;
    }
    assert xs[..i] == xs;
  }

  /** The chart's data: sorted months down, sorted groups across, one sum per cell. */
  datatype Chart = Chart(months: seq<(int, int)>, groups: seq<string>, values: seq<seq<real>>)

  /** `agg.get(month, {}).get(group, 0.0)`. */
  function CellOf(agg: Buckets, month: (int, int), group: string): real {
    if month in agg && group in agg[month] then agg[month][group] else 0.0
  }

  /** The data frame's rows: one value per sorted month and group, 0.0 for an empty bucket. */
  method BuildMatrix(agg: Buckets, months: seq<(int, int)>, groups: seq<string>) returns (values: seq<seq<real>>)
    ensures |values| == |months|
    ensures forall i :: 0 <= i < |months| ==> |values[i]| == |groups|
    ensures forall i, j :: 0 <= i < |months| && 0 <= j < |groups| ==> values[i][j] == CellOf(agg, months[i], groups[j])
  {
    values := [];
    var i := 0;
    while i < |months|
      invariant 0 <= i <= |months|
      invariant |values| == i
      invariant forall a :: 0 <= a < i ==> |values[a]| == |groups|
      invariant forall a, j :: 0 <= a < i && 0 <= j < |groups| ==> values[a][j] == CellOf(agg, months[a], groups[j])
    {
      var month := months[i];
      var row := if month in agg then agg[month] else map[];
      var line: seq<real> := [];
      var j := 0;
      while j < |groups|
        invariant 0 <= j <= |groups|
        invariant |line| == j
        invariant forall b :: 0 <= b < j ==> line[b] == CellOf(agg, month, groups[b])
      {
        line := line + [if groups[j] in row then row[groups[j]] else 0.0];
        j := j + 1;
      }
      values := values + [line];
      i := i + 1;
    }
  }

  /** The matrix cells are the reference bucket sums, empty buckets included. */
  lemma CellsAreBucketTotals(xs: seq<Sourced>, q: Query, agg: Buckets)
    requires forall k, g :: k in agg && g in agg[k] ==> agg[k][g] == BucketTotal(xs, q, k, g)
    requires forall k, g :: BucketActive(xs, q, k, g) <==> k in agg && g in agg[k]
    ensures forall k, g :: CellOf(agg, k, g) == BucketTotal(xs, q, k, g)
  {
    forall k, g ensures CellOf(agg, k, g) == BucketTotal(xs, q, k, g) {
      if !(k in agg && g in agg[k]) {
        InactiveBucketIsZero(xs, q, k, g);
      }
    }
  }

  datatype GraphError =
    | NoBankSelected      // "Selecione ao menos um banco (tabela)."
    | NoCompanySelected   // "Selecione ao menos uma empresa."
    | InvalidPeriod       // "Período inválido. Selecione mês e ano."
    | NoData              // "Nenhum dado encontrado para os filtros selecionados."

  /**
   * What the plotted data frame holds: the active months in increasing
   * order as its index, the active groups in increasing order as its
   * columns, and in every cell the bucket's reference sum.
   */
  ghost predicate ChartOf(c: Chart, xs: seq<Sourced>, q: Query) {
    && Sorted(c.months, MonthBefore)
    && (forall k :: k in c.months <==> MonthActive(xs, q, k))
    && Sorted(c.groups, TextBefore)
    && (forall g :: g in c.groups <==> GroupActive(xs, q, g))
    && |c.values| == |c.months|
    && (forall i :: 0 <= i < |c.months| ==> |c.values[i]| == |c.groups|)
    && (forall i, j :: 0 <= i < |c.months| && 0 <= j < |c.groups| ==>
          c.values[i][j] == BucketTotal(xs, q, c.months[i], c.groups[j]))
  }

  /** Some selected installment exists at all. */
  ghost predicate AnySelected(xs: seq<Sourced>, q: Query) {
    exists k :: MonthActive(xs, q, k)
  }

  /** The chart of the selected installments, or NoData when there is none. */
  method ChartData(xs: seq<Sourced>, q: Query) returns (r: Result<Chart, GraphError>)
    ensures r.Ok? || r == Err(NoData)
    ensures r.Ok? <==> AnySelected(xs, q)
    ensures r.Ok? ==> ChartOf(r.value, xs, q)
  {
    var agg, groups := AggregateMonthly(xs, q);
    if agg == map[] {
      return Err(NoData);
    }
    var someMonth :| someMonth in agg;
    assert MonthActive(xs, q, someMonth);
    MonthOrderIsStrictTotal();
    TextOrderIsStrictTotal();
    var months := SortSet(agg.Keys, MonthBefore);
    var groupList := SortSet(groups, TextBefore);
    var values := BuildMatrix(agg, months, groupList);
    CellsAreBucketTotals(xs, q, agg);
    return Ok(Chart(months, groupList, values));
  }

  /**
   * `_generate_graph` up to the data frame it plots: the checks in the
   * source's order, then the accumulation and the dense matrix.
   */
  method GenerateGraph(tables: seq<BankTable>, companies: seq<string>, metric: Metric, grouping: Grouping,
                       smText: string, syText: string, emText: string, eyText: string, rt: Runtime)
    returns (r: Result<Chart, GraphError>)
    ensures r == Err(NoBankSelected) <==> |tables| == 0
    ensures r == Err(NoCompanySelected) <==> |tables| > 0 && |companies| == 0
    ensures |tables| > 0 && |companies| > 0 ==>
      (r == Err(InvalidPeriod) <==> ParsePeriod(smText, syText, emText, eyText).None?)
    ensures |tables| > 0 && |companies| > 0 && ParsePeriod(smText, syText, emText, eyText).Some? ==>
      r.Ok? || r == Err(NoData)
    ensures r.Ok? || r == Err(NoData) ==>
      && |tables| > 0 && |companies| > 0 && ParsePeriod(smText, syText, emText, eyText).Some?
      && var q := Query(ParsePeriod(smText, syText, emText, eyText).value, companies, metric, grouping);
         && (r.Ok? <==> AnySelected(Installments(tables, rt), q))
         && (r.Ok? ==> ChartOf(r.value, Installments(tables, rt), q))
  {
    if |tables| == 0 { return Err(NoBankSelected); }
    if |companies| == 0 { return Err(NoCompanySelected); }
    var period := ParsePeriod(smText, syText, emText, eyText);
    if period.None? { return Err(InvalidPeriod); }
    r := ChartData(Installments(tables, rt), Query(period.value, companies, metric, grouping));
  }

  /** Per bucket, the interest chart is the payment chart minus the amortization chart. */
  lemma {:induction false} InterestBucketIsPaidMinusAmortization(xs: seq<Sourced>, p: Period, companies: seq<string>,
                                                                 grouping: Grouping, month: (int, int), group: string)
    ensures BucketTotal(xs, Query(p, companies, Juros, grouping), month, group) ==
      BucketTotal(xs, Query(p, companies, Parcelas, grouping), month, group)
      - BucketTotal(xs, Query(p, companies, Amortizacao, grouping), month, group)
  {
    if |xs| > 0 {
      InterestBucketIsPaidMinusAmortization(xs[..|xs| - 1], p, companies, grouping, month, group);
    }
  }

  /** A bucket over two runs of installments is the sum of the two runs' buckets. */
  lemma {:induction false} BucketTotalAppend(a: seq<Sourced>, b: seq<Sourced>, q: Query, month: (int, int), group: string)
    ensures BucketTotal(a + b, q, month, group) == BucketTotal(a, q, month, group) + BucketTotal(b, q, month, group)
    decreases |b|
  {
    if |b| > 0 {
      assert (a + b)[..|a + b| - 1] == a + b[..|b| - 1];
      assert (a + b)[|a + b| - 1] == b[|b| - 1];
      BucketTotalAppend(a, b[..|b| - 1], q, month, group);
    } else {
      assert a + b == a;
    }
  }

  /** One step of the table loop: the first table's installments, if it has `tuplas`, then the rest. */
  lemma InstallmentsStep(tables: seq<BankTable>, rt: Runtime)
    requires |tables| > 0
    ensures Installments(tables, rt) ==
      (if tables[0].hasTuplas then CellInstallments(tables[0].bank, tables[0].cells, rt) else [])
      + Installments(tables[1..], rt)
  {
  }

  lemma {:induction false} InstallmentsAppend(t: seq<BankTable>, u: seq<BankTable>, rt: Runtime)
    ensures Installments(t + u, rt) == Installments(t, rt) + Installments(u, rt)
  {
    if |t| > 0 {
      var tu := t + u;
      var tail := t[1..] + u;
      var head := if t[0].hasTuplas then CellInstallments(t[0].bank, t[0].cells, rt) else [];
      var rest := Installments(t[1..], rt);
      var later := Installments(u, rt);
      assert tu[0] == t[0];
      assert tu[1..] == tail;
      InstallmentsStep(tu, rt);
      assert Installments(tu, rt) == head + Installments(tail, rt);
      InstallmentsAppend(t[1..], u, rt);
      InstallmentsStep(t, rt);
      assert head + (rest + later) == (head + rest) + later;
    } else {
      assert t + u == u;
    }
  }

  /** Selecting more tables adds their sums to every bucket: the aggregation is additive over banks. */
  lemma BucketsAddUpOverBanks(t: seq<BankTable>, u: seq<BankTable>, rt: Runtime, q: Query, month: (int, int), group: string)
    ensures BucketTotal(Installments(t + u, rt), q, month, group) ==
      BucketTotal(Installments(t, rt), q, month, group) + BucketTotal(Installments(u, rt), q, month, group)
  {
    InstallmentsAppend(t, u, rt);
    BucketTotalAppend(Installments(t, rt), Installments(u, rt), q, month, group);
  }

  /** With grouping `Tudo` every active group is "TOTAL". */
  lemma {:induction false} SingleGroupForTudo(xs: seq<Sourced>, q: Query, group: string)
    requires q.grouping == Tudo
    requires GroupActive(xs, q, group)
    ensures group == TotalGroup
  {
    if !(Selected(q, xs[|xs| - 1]) && GroupOf(q.grouping, xs[|xs| - 1]) == group) {
      SingleGroupForTudo(xs[..|xs| - 1], q, group);
    }
  }
}

=== FILE: dates.dfy ===
/**
 * Calendar dates and the `%d-%m-%Y` format of Python's `datetime.strptime`,
 * which the application uses both to validate date columns and to read the
 * installment dates inside a schedule.
 */
module Dates {
  import opened Wrappers
  import opened Text

  datatype Date = Date(year: int, month: int, day: int)

  predicate IsLeapYear(y: int) {
    y % 4 == 0 && (y % 100 != 0 || y % 400 == 0)
  }

  function DaysInMonth(y: int, m: int): int
    requires 1 <= m <= 12
  {
    if m == 2 then (if IsLeapYear(y) then 29 else 28)
    else if m == 4 || m == 6 || m == 9 || m == 11 then 30
    else 31
  }

  /** A date `datetime` can represent: years 1 to 9999 and a real calendar day. */
  predicate ValidDate(d: Date) {
    && 1 <= d.year <= 9999
    && 1 <= d.month <= 12
    && 1 <= d.day <= DaysInMonth(d.year, d.month)
  }

  /** Chronological order of dates at midnight. */
  predicate Before(a: Date, b: Date) {
    || a.year < b.year
    || (a.year == b.year && a.month < b.month)
    || (a.year == b.year && a.month == b.month && a.day < b.day)
  }

  predicate AtOrBefore(a: Date, b: Date) {
    a == b || Before(a, b)
  }

  /** `%d`: "3[01]", "[12]\d", "0[1-9]", "[1-9]" or a space followed by "[1-9]". */
  function DayToken(s: string): Option<int> {
    if |s| == 1 && '1' <= s[0] <= '9' then Some(DigitValue(s[0]))
    else if |s| == 2 && s[0] == ' ' && '1' <= s[1] <= '9' then Some(DigitValue(s[1]))
    else if |s| == 2 && s[0] == '0' && '1' <= s[1] <= '9' then Some(DigitValue(s[1]))
    else if |s| == 2 && (s[0] == '1' || s[0] == '2') && IsDigit(s[1]) then Some(10 * DigitValue(s[0]) + DigitValue(s[1]))
    else if |s| == 2 && s[0] == '3' && (s[1] == '0' || s[1] == '1') then Some(30 + DigitValue(s[1]))
    else None
  }

  /** `%m`: "1[0-2]", "0[1-9]" or "[1-9]". */
  function MonthToken(s: string): Option<int> {
    if |s| == 1 && '1' <= s[0] <= '9' then Some(DigitValue(s[0]))
    else if |s| == 2 && s[0] == '0' && '1' <= s[1] <= '9' then Some(DigitValue(s[1]))
    else if |s| == 2 && s[0] == '1' && '0' <= s[1] <= '2' then Some(10 + DigitValue(s[1]))
    else None
  }

  /** `%Y`: exactly four digits. */
  function YearToken(s: string): Option<int> {
    if |s| == 4 && IsDigit(s[0]) && IsDigit(s[1]) && IsDigit(s[2]) && IsDigit(s[3]) then
      Some(1000 * DigitValue(s[0]) + 100 * DigitValue(s[1]) + 10 * DigitValue(s[2]) + DigitValue(s[3]))
    else None
  }

  /**
   * `datetime.strptime(s, "%d-%m-%Y")`: the whole text must be the three
   * fields joined by '-' (none of the fields can hold a '-'), and the
   * fields must name a real calendar date.
   */
  function ParseDate(s: string): (r: Option<Date>)
    ensures r.Some? ==> ValidDate(r.value)
  {
    var parts := Split(s, '-');
    if |parts| != 3 then None
    else
      match (DayToken(parts[0]), MonthToken(parts[1]), YearToken(parts[2]))
      case (Some(d), Some(m), Some(y)) =>
        var date := Date(y, m, d);
        if ValidDate(date) then Some(date) else None
      case _ => None
  }

  predicate IsDateText(s: string) {
    ParseDate(s).Some?
  }

  /** Two-digit, zero-padded rendering used for day and month. */
  function TwoDigits(n: int): (s: string)
    requires 0 <= n < 100
    ensures |s| == 2 && IsDigit(s[0]) && IsDigit(s[1])
    ensures 10 * DigitValue(s[0]) + DigitValue(s[1]) == n
  {
    [DigitChar(n / 10), DigitChar(n % 10)]
  }

  function FourDigits(n: int): (s: string)
    requires 0 <= n < 10000
    ensures YearToken(s) == Some(n)
  {
    var thousands, rest := n / 1000, n % 1000;
    var hundreds, rest' := rest / 100, rest % 100;
    [DigitChar(thousands), DigitChar(hundreds), DigitChar(rest' / 10), DigitChar(rest' % 10)]
  }

  lemma DayTokenOfTwoDigits(n: int)
    requires 1 <= n <= 31
    ensures DayToken(TwoDigits(n)) == Some(n)
  {
  }

  lemma MonthTokenOfTwoDigits(n: int)
    requires 1 <= n <= 12
    ensures MonthToken(TwoDigits(n)) == Some(n)
  {
  }

  /** The canonical "dd-mm-yyyy" text of a date, as `strftime("%d-%m-%Y")` writes it. */
  function FormatDate(d: Date): string
    requires ValidDate(d)
  {
    TwoDigits(d.day) + "-" + TwoDigits(d.month) + "-" + FourDigits(d.year)
  }

  /** Reading back a formatted date gives the same date. */
  lemma ParseFormatDate(d: Date)
    requires ValidDate(d)
    ensures ParseDate(FormatDate(d)) == Some(d)
  {
    var dd := TwoDigits(d.day);
    var mm := TwoDigits(d.month);
    var yyyy := FourDigits(d.year);
    var parts := [dd, mm, yyyy];
    assert Join(parts, '-') == FormatDate(d) by {
      assert parts[1..] == [mm, yyyy];
      assert [mm, yyyy][1..] == [yyyy];
      assert Join([mm, yyyy], '-') == mm + ['-'] + yyyy;
    }
    assert Split(FormatDate(d), '-') == parts by {
      assert '-' !in dd && '-' !in mm && '-' !in yyyy;
      SplitJoin(parts, '-');
    }
    DayTokenOfTwoDigits(d.day);
    MonthTokenOfTwoDigits(d.month);
  }
}

=== FILE: forms.dfy ===
/**
 * The two composite edits the sheet view performs on the store: the
 * "add row" form (`SheetFrame.add_row`, its `save` callback) and moving a
 * row to another table (`move_row_dialog`, its `do_move` callback).  The
 * dialogs themselves are replaced by their inputs: the typed texts, the
 * chosen destination and new id, and the answer to the fill-in dialog.
 */
module Forms {
  import opened Wrappers
  import opened Text
  import opened Settings
  import opened Validation
  import opened RecordStore

  /** `xs` is `ys` with some elements left out, the rest kept in their order. */
  predicate IsSubsequence<T(==)>(xs: seq<T>, ys: seq<T>)
    decreases |ys|
  {
    if |xs| == 0 then true
    else if |ys| == 0 then false
    else if xs[0] == ys[0] then IsSubsequence(xs[1..], ys[1..])
    else IsSubsequence(xs, ys[1..])
  }

  /** A subsequence of the tail is a subsequence of the whole. */
  lemma {:induction false} SubsequenceOfTail<T>(xs: seq<T>, ys: seq<T>)
    requires |ys| > 0 && IsSubsequence(xs, ys[1..])
    ensures IsSubsequence(xs, ys)
    decreases |ys|, 0
  {
    if |xs| > 0 && xs[0] == ys[0] {
      SubsequenceDropHead(xs, ys[1..]);
    }
  }

  /** Leaving out the first element keeps a subsequence. */
  lemma {:induction false} SubsequenceDropHead<T>(xs: seq<T>, ys: seq<T>)
    requires |xs| > 0 && IsSubsequence(xs, ys)
    ensures IsSubsequence(xs[1..], ys)
    decreases |ys|, 1
  {
    if xs[0] == ys[0] {
      SubsequenceOfTail(xs[1..], ys);
    } else {
      SubsequenceDropHead(xs, ys[1..]);
      SubsequenceOfTail(xs[1..], ys);
    }
  }

  /** The columns among `cols`, in order, whose policy is "required" but whose value is blank. */
  function MissingRequired(cfg: Config, table: string, cols: seq<string>, values: Row): (missing: seq<string>)
    ensures forall c :: c in missing <==>
      c in cols && GetStd(cfg, table, c).required && (c !in values || IsBlank(values[c]))
    ensures IsSubsequence(missing, cols)
  {
    if |cols| == 0 then []
    else
      var c := cols[0];
      var here := GetStd(cfg, table, c).required && (c !in values || IsBlank(values[c]));
      var rest := MissingRequired(cfg, table, cols[1..], values);
      if here then
        assert ([c] + rest)[1..] == rest;
        [c] + rest
      else
        SubsequenceOfTail(rest, cols);
        rest
  }

  /** The first column, in order, whose value `validate_value(..., is_initial=True)` rejects. */
  function FirstInvalid(cfg: Config, table: string, cols: seq<string>, values: Row): (r: Option<(string, ValidationError)>)
    requires forall c :: c in cols ==> c in values
    ensures r.None? <==> forall c :: c in cols ==> ValidateValue(cfg, table, c, values[c], true).Ok?
    ensures r.Some? ==> r.value.0 in cols && ValidateValue(cfg, table, r.value.0, values[r.value.0], true) == Err(r.value.1)
    ensures r.Some? ==>
      exists i :: 0 <= i < |cols| && cols[i] == r.value.0 &&
        forall j :: 0 <= j < i ==> ValidateValue(cfg, table, cols[j], values[cols[j]], true).Ok?
  {
    if |cols| == 0 then None
    else match ValidateValue(cfg, table, cols[0], values[cols[0]], true)
      case Err(e) => Some((cols[0], e))
      case Ok(_) =>
        var tail := cols[1..];
        assert forall k :: 0 <= k < |tail| ==> tail[k] == cols[k + 1];
        FirstInvalid(cfg, table, tail, values)
  }

  /** Why the add-row form refused to insert. */
  datatype AddRowError =
    | NoTableChosen
    | RequiredMissing(columns: seq<string>)
    | EmptyId
    | IdTaken(id: string)
    | InvalidValue(column: string, reason: ValidationError)
    | InsertRefused(error: StoreError)

  /** The values the form sends: every column's typed text, stripped. */
  function FormValues(cols: seq<string>, typed: map<string, string>): (values: Row)
    requires forall c :: c in cols ==> c in typed
    ensures forall c :: c in values <==> c in cols
    ensures forall c :: c in values ==> values[c] == Strip(typed[c])
  {
    map c | c in cols :: Strip(typed[c])
  }

  /** All four checks of the add-row form pass. */
  predicate AddRowAccepted(s: Store, cfg: Config, table: string, values: Row) {
    && table != ""
    && (forall c :: c in values && GetStd(cfg, table, c).required ==> !IsBlank(values[c]))
    && IdColumn in values && values[IdColumn] != ""
    && !HasId(s, table, values[IdColumn])
    && (forall c :: c in values ==> ValidateValue(cfg, table, c, values[c], true).Ok?)
  }

  /**
   * The add-row form's `save`: required columns, a non-empty id, an id
   * not yet used and a valid value in every column, checked in that
   * order; only then `insert_row`.
   */
  function AddRow(s: Store, cfg: Config, table: string, typed: map<string, string>): (r: (Store, Result<string, AddRowError>))
    requires forall c :: c in ColumnsOf(s, table) ==> c in typed
    ensures r.1.Err? ==> r.0 == s
    ensures var values := FormValues(ColumnsOf(s, table), typed);
      && (r.1.Ok? <==> AddRowAccepted(s, cfg, table, values))
      && (r.1.Ok? ==> IdColumn in values && r.0 == InsertRow(s, table, values).store)
    ensures r.1.Err? && r.1.error.RequiredMissing? ==>
      r.1.error.columns == MissingRequired(cfg, table, ColumnsOf(s, table), FormValues(ColumnsOf(s, table), typed))
    ensures table == "" ==> r.1 == Err(NoTableChosen)
    ensures var cols := ColumnsOf(s, table);
      var values := FormValues(cols, typed);
      var missing := MissingRequired(cfg, table, cols, values);
      var first := FirstInvalid(cfg, table, cols, values);
      && (table != "" && |missing| > 0 ==> r.1 == Err(RequiredMissing(missing)))
      && (table != "" && |missing| == 0 && (IdColumn !in values || values[IdColumn] == "") ==> r.1 == Err(EmptyId))
      && ((table != "" && |missing| == 0 && IdColumn in values && values[IdColumn] != "" &&
           HasId(s, table, values[IdColumn])) ==> r.1 == Err(IdTaken(values[IdColumn])))
      && ((table != "" && |missing| == 0 && IdColumn in values && values[IdColumn] != "" &&
           !HasId(s, table, values[IdColumn]) && first.Some?) ==> r.1 == Err(InvalidValue(first.value.0, first.value.1)))
  {
    var cols := ColumnsOf(s, table);
    SubmitForm(s, cfg, table, cols, FormValues(cols, typed))
  }

  /** `save` once the form's values are collected: the checks in order, then `insert_row`. */
  function SubmitForm(s: Store, cfg: Config, table: string, cols: seq<string>, values: Row): (r: (Store, Result<string, AddRowError>))
    requires cols == ColumnsOf(s, table)
    requires forall c :: c in values <==> c in cols
    ensures r.1.Err? ==> r.0 == s
    ensures r.1.Ok? <==> AddRowAccepted(s, cfg, table, values)
    ensures r.1.Ok? ==> IdColumn in values && r.0 == InsertRow(s, table, values).store
    ensures r.1.Err? && r.1.error.RequiredMissing? ==> r.1.error.columns == MissingRequired(cfg, table, cols, values)
    ensures table == "" ==> r.1 == Err(NoTableChosen)
    ensures var missing := MissingRequired(cfg, table, cols, values);
      var first := FirstInvalid(cfg, table, cols, values);
      && (table != "" && |missing| > 0 ==> r.1 == Err(RequiredMissing(missing)))
      && (table != "" && |missing| == 0 && (IdColumn !in values || values[IdColumn] == "") ==> r.1 == Err(EmptyId))
      && ((table != "" && |missing| == 0 && IdColumn in values && values[IdColumn] != "" &&
           HasId(s, table, values[IdColumn])) ==> r.1 == Err(IdTaken(values[IdColumn])))
      && ((table != "" && |missing| == 0 && IdColumn in values && values[IdColumn] != "" &&
           !HasId(s, table, values[IdColumn]) && first.Some?) ==> r.1 == Err(InvalidValue(first.value.0, first.value.1)))
  {
    match FormCheck(s, cfg, table, cols, values)
    case Some(e) => (s, Err(e))
    case None =>
      assert table in s.tables && cols == s.tables[table].columns by { assert IdColumn in cols; }
      assert InsertRow(s, table, values).outcome.Ok?;
      ValidateThenInsert(s, cfg, table, cols, values)
  }

  /** The first checks of `save`, in order: a table chosen, no required column blank, a non-empty id not yet used. */
  function FormCheck(s: Store, cfg: Config, table: string, cols: seq<string>, values: Row): (e: Option<AddRowError>)
    requires forall c :: c in values <==> c in cols
    ensures e.None? <==>
      && table != ""
      && (forall c :: c in values && GetStd(cfg, table, c).required ==> !IsBlank(values[c]))
      && IdColumn in values && values[IdColumn] != ""
      && !HasId(s, table, values[IdColumn])
    ensures e.Some? ==> !e.value.InvalidValue? && !e.value.InsertRefused?
    ensures e.Some? && e.value.RequiredMissing? ==> e.value.columns == MissingRequired(cfg, table, cols, values)
    ensures e.None? ==> MissingRequired(cfg, table, cols, values) == []
    ensures table == "" ==> e == Some(NoTableChosen)
    ensures var missing := MissingRequired(cfg, table, cols, values);
      && (table != "" && |missing| > 0 ==> e == Some(RequiredMissing(missing)))
      && (table != "" && |missing| == 0 && (IdColumn !in values || values[IdColumn] == "") ==> e == Some(EmptyId))
      && ((table != "" && |missing| == 0 && IdColumn in values && values[IdColumn] != "" &&
           HasId(s, table, values[IdColumn])) ==> e == Some(IdTaken(values[IdColumn])))
  {
    var missing := MissingRequired(cfg, table, cols, values);
    if table == "" then Some(NoTableChosen)
    else if |missing| > 0 then
      assert missing[0] in missing;
      Some(RequiredMissing(missing))
    else if IdColumn !in values || values[IdColumn] == "" then Some(EmptyId)
    else if HasId(s, table, values[IdColumn]) then Some(IdTaken(values[IdColumn]))
    else None
  }

  /** The last two steps of `save`: validate every column in order, then `insert_row`. */
  function ValidateThenInsert(s: Store, cfg: Config, table: string, cols: seq<string>, values: Row)
    : (r: (Store, Result<string, AddRowError>))
    requires forall c :: c in values <==> c in cols
    requires IdColumn in values
    ensures r.1.Err? ==> r.0 == s && (r.1.error.InvalidValue? || r.1.error.InsertRefused?)
    ensures r.1.Ok? <==>
      (forall c :: c in values ==> ValidateValue(cfg, table, c, values[c], true).Ok?) &&
      InsertRow(s, table, values).outcome.Ok?
    ensures r.1.Ok? ==> r.0 == InsertRow(s, table, values).store
    ensures var first := FirstInvalid(cfg, table, cols, values);
      && (first.Some? ==> r == (s, Err(InvalidValue(first.value.0, first.value.1))))
      && (first.None? && r.1.Err? ==> r.1 == Err(InsertRefused(InsertRow(s, table, values).outcome.error)))
  {
    match FirstInvalid(cfg, table, cols, values)
    case Some((c, e)) => (s, Err(InvalidValue(c, e)))
    case None =>
      var ins := InsertRow(s, table, values);
      match ins.outcome
      case Ok(id) => (ins.store, Ok(id))
      case Err(e) => (s, Err(InsertRefused(e)))
  }

  /**
   * What a successful add-row leaves in the table: no required column
   * blank, and no fixed column holding a non-empty value outside its list.
   */
  lemma AddedRowRespectsPolicies(s: Store, cfg: Config, table: string, typed: map<string, string>)
    requires forall c :: c in ColumnsOf(s, table) ==> c in typed
    requires AddRow(s, cfg, table, typed).1.Ok?
    ensures var values := FormValues(ColumnsOf(s, table), typed);
      var id := values[IdColumn];
      var row := AddRow(s, cfg, table, typed).0.tables[table].rows[id];
      && row == values
      && (forall c :: c in row && GetStd(cfg, table, c).required ==> !IsBlank(row[c]))
      && (forall c :: c in row && GetStd(cfg, table, c).mode == "fixed" && row[c] != "" ==>
            row[c] in GetStd(cfg, table, c).values)
  {
  }

  /** How a move ended. */
  datatype MoveOutcome =
    | Moved(id: string)                      // inserted at the destination, then deleted at the source
    | NoDestination                          // no destination chosen: nothing happens
    | IdTakenAtDestination(id: string)       // "ID ... já existe na tabela ...": nothing happens
    | Cancelled                              // the fill-in dialog was cancelled: nothing happens
    | InsertFailed(error: StoreError)        // insert_row raised: nothing happens
    | DeleteFailed(error: StoreError)        // the copy stays at the destination, the source row too

  /** The new id typed in the dialog, or the source id when it is left blank. */
  function EffectiveId(rowId: string, newIdText: string): (id: string)
    ensures IsBlank(newIdText) ==> id == rowId
    ensures !IsBlank(newIdText) ==> id == Strip(newIdText) && !IsBlank(id) && Strip(id) == id
  {
    StripIdempotent(newIdText);
    if Strip(newIdText) == "" then rowId else Strip(newIdText)
  }

  /** The source row mapped onto the destination's columns, "" for missing or NULL cells, keyed by the effective id. */
  function MovedValues(destCols: seq<string>, shown: Row, id: string): (values: Row)
    ensures IdColumn in values && values[IdColumn] == id
    ensures forall c :: c in values <==> c in destCols || c == IdColumn
    ensures forall c :: c in destCols && c != IdColumn ==> values[c] == (if c in shown then shown[c] else "")
  {
    (map c | c in destCols :: if c in shown then shown[c] else "")[IdColumn := id]
  }

  /** The values after the fill-in dialog: each listed column gets its typed text, stripped. */
  function FillIn(values: Row, missing: seq<string>, typed: map<string, string>): (filled: Row)
    requires forall c :: c in missing ==> c in typed
    ensures filled.Keys == values.Keys + set c | c in missing
    ensures forall c :: c in filled ==> filled[c] == (if c in missing then Strip(typed[c]) else values[c])
  {
    values + map c | c in missing :: Strip(typed[c])
  }

  /** The fill-in dialog only returns once every listed column has a non-blank entry. */
  predicate DialogAnswered(missing: seq<string>, answer: Option<map<string, string>>) {
    answer.Some? ==> forall c :: c in missing ==> c in answer.value && !IsBlank(answer.value[c])
  }

  function MoveMissing(s: Store, cfg: Config, dest: string, shown: Row, rowId: string, newIdText: string): seq<string> {
    var destCols := ColumnsOf(s, dest);
    MissingRequired(cfg, dest, destCols, MovedValues(destCols, shown, EffectiveId(rowId, newIdText)))
  }

  /**
   * The values `do_move` inserts: the mapped row, with the fill-in
   * dialog's entries for the listed columns when it was answered.
   */
  function MoveValues(s: Store, cfg: Config, dest: string, shown: Row, rowId: string,
                      newIdText: string, answer: Option<map<string, string>>): (values: Row)
    requires DialogAnswered(MoveMissing(s, cfg, dest, shown, rowId, newIdText), answer)
    ensures var missing := MoveMissing(s, cfg, dest, shown, rowId, newIdText);
      var base := MovedValues(ColumnsOf(s, dest), shown, EffectiveId(rowId, newIdText));
      && (forall c :: c in values <==> c in base)
      && (forall c :: c in base && c !in missing ==> values[c] == base[c])
      && (answer.Some? ==> forall c :: c in missing ==> values[c] == Strip(answer.value[c]) && !IsBlank(values[c]))
  {
    var missing := MoveMissing(s, cfg, dest, shown, rowId, newIdText);
    var base := MovedValues(ColumnsOf(s, dest), shown, EffectiveId(rowId, newIdText));
    if |missing| > 0 && answer.Some? then
      var filled := FillIn(base, missing, answer.value);
      assert forall c :: c in missing ==> c in base;
      forall c | c in missing ensures !IsBlank(filled[c]) {
        StripIdempotent(answer.value[c]);
      }
      filled
    else base
  }

  /**
   * `do_move`: refuse an id the destination already holds, map the row
   * onto the destination's columns, ask for blank required columns
   * (cancelling stops the move), insert at the destination and only then
   * delete at the source.
   */
  function MoveRow(s: Store, cfg: Config, srcTable: string, rowId: string, shown: Row,
                   dest: string, newIdText: string, answer: Option<map<string, string>>): (r: (Store, MoveOutcome))
    requires DialogAnswered(MoveMissing(s, cfg, dest, shown, rowId, newIdText), answer)
    ensures r.1.Moved? ==> r.1.id == EffectiveId(rowId, newIdText)
    ensures dest != "" && HasId(s, dest, EffectiveId(rowId, newIdText)) ==>
      r == (s, IdTakenAtDestination(EffectiveId(rowId, newIdText)))
    ensures r.1.Cancelled? <==>
      dest != "" && !HasId(s, dest, EffectiveId(rowId, newIdText)) &&
      |MoveMissing(s, cfg, dest, shown, rowId, newIdText)| > 0 && answer.None?
    ensures r.1.NoDestination? <==> dest == ""
    ensures r.1.NoDestination? || r.1.IdTakenAtDestination? || r.1.Cancelled? || r.1.InsertFailed? ==> r.0 == s
    ensures r.1.Moved? || r.1.DeleteFailed? ==>
      var values := MoveValues(s, cfg, dest, shown, rowId, newIdText, answer);
      var ins := InsertRow(s, dest, values);
      && dest in s.tables
      && EffectiveId(rowId, newIdText) !in s.tables[dest].rows
      && ins.outcome.Ok?
      && (r.1.DeleteFailed? ==> r.0 == ins.store && srcTable !in s.tables)
      && (r.1.Moved? ==> r.0 == DeleteRow(ins.store, srcTable, rowId).store)
    ensures dest != "" && !HasId(s, dest, EffectiveId(rowId, newIdText)) &&
            !(|MoveMissing(s, cfg, dest, shown, rowId, newIdText)| > 0 && answer.None?) ==>
      var ins := InsertRow(s, dest, MoveValues(s, cfg, dest, shown, rowId, newIdText, answer));
      && (r.1.InsertFailed? <==> ins.outcome.Err?)
      && (r.1.InsertFailed? ==> r.1.error == ins.outcome.error)
      && (ins.outcome.Ok? ==> (r.1.Moved? <==> DeleteRow(ins.store, srcTable, rowId).outcome.Ok?))
      && (ins.outcome.Ok? ==> (r.1.Moved? || r.1.DeleteFailed?))
  {
    var id := EffectiveId(rowId, newIdText);
    if dest == "" then (s, NoDestination)
    else if HasId(s, dest, id) then (s, IdTakenAtDestination(id))
    else if |MoveMissing(s, cfg, dest, shown, rowId, newIdText)| > 0 && answer.None? then (s, Cancelled)
    else TransferRow(s, dest, MoveValues(s, cfg, dest, shown, rowId, newIdText, answer), srcTable, rowId, id)
  }

  /** The end of `do_move`: insert at the destination, and only when that succeeded delete at the source. */
  function TransferRow(s: Store, dest: string, values: Row, srcTable: string, rowId: string, id: string): (r: (Store, MoveOutcome))
    requires IdColumn in values
    ensures r.1.InsertFailed? || r.1.DeleteFailed? || r.1 == Moved(id)
    ensures var ins := InsertRow(s, dest, values);
      && (r.1.InsertFailed? <==> ins.outcome.Err?)
      && (r.1.InsertFailed? ==> r == (s, InsertFailed(ins.outcome.error)))
      && (ins.outcome.Ok? ==> (r.1.Moved? <==> DeleteRow(ins.store, srcTable, rowId).outcome.Ok?))
      && (r.1.DeleteFailed? ==> r.0 == ins.store && srcTable !in s.tables)
      && (r.1.Moved? ==> r.0 == DeleteRow(ins.store, srcTable, rowId).store)
  {
    var ins := InsertRow(s, dest, values);
    if ins.outcome.Err? then (s, InsertFailed(ins.outcome.error))
    else
      var del := DeleteRow(ins.store, srcTable, rowId);
      if del.outcome.Err? then (ins.store, DeleteFailed(del.outcome.error))
      else (del.store, Moved(id))
  }

  /**
   * A completed move between two different tables of a well-formed store,
   * with a non-blank id: the destination gains the row `MoveValues` builds
   * under that id, the source loses the row, and the two tables together
   * hold as many rows as before.
   */
  lemma MoveConservesRows(s: Store, cfg: Config, srcTable: string, rowId: string, shown: Row,
                          dest: string, newIdText: string, answer: Option<map<string, string>>)
    requires WellFormed(s)
    requires DialogAnswered(MoveMissing(s, cfg, dest, shown, rowId, newIdText), answer)
    requires srcTable != dest
    requires srcTable in s.tables && rowId in s.tables[srcTable].rows
    requires !IsBlank(EffectiveId(rowId, newIdText))
    requires MoveRow(s, cfg, srcTable, rowId, shown, dest, newIdText, answer).1.Moved?
    ensures var after := MoveRow(s, cfg, srcTable, rowId, shown, dest, newIdText, answer).0;
      var id := EffectiveId(rowId, newIdText);
      && srcTable in after.tables && dest in after.tables && dest in s.tables
      && after.tables[srcTable].rows == s.tables[srcTable].rows - {rowId}
      && after.tables[dest].rows ==
         s.tables[dest].rows[id := MoveValues(s, cfg, dest, shown, rowId, newIdText, answer)]
      && |after.tables[srcTable].rows| + |after.tables[dest].rows| ==
         |s.tables[srcTable].rows| + |s.tables[dest].rows|
  {
    var values := MoveValues(s, cfg, dest, shown, rowId, newIdText, answer);
    assert IdColumn !in MoveMissing(s, cfg, dest, shown, rowId, newIdText);
    InsertThenDelete(s, dest, values, srcTable, rowId);
  }

  /**
   * The row a completed move stores: the id, the source's cells where no
   * entry was asked for, and the dialog's non-blank entries where one was.
   */
  lemma MovedRowContents(s: Store, cfg: Config, dest: string, shown: Row, rowId: string,
                         newIdText: string, answer: Option<map<string, string>>)
    requires DialogAnswered(MoveMissing(s, cfg, dest, shown, rowId, newIdText), answer)
    requires !IsBlank(EffectiveId(rowId, newIdText))
    requires answer.Some?
    ensures var values := MoveValues(s, cfg, dest, shown, rowId, newIdText, answer);
      var missing := MoveMissing(s, cfg, dest, shown, rowId, newIdText);
      && (IdColumn in ColumnsOf(s, dest) ==> IdColumn in values && values[IdColumn] == EffectiveId(rowId, newIdText))
      && (forall c :: c in ColumnsOf(s, dest) && c != IdColumn && c !in missing ==>
            c in values && values[c] == (if c in shown then shown[c] else ""))
      && (forall c :: c in missing ==> c in values && !IsBlank(values[c]))
  {
    assert IdColumn !in MoveMissing(s, cfg, dest, shown, rowId, newIdText);
  }

  /**
   * Inserting into one table and then deleting from another: the
   * destination gains exactly the inserted row, the source loses exactly
   * the deleted one, so the two hold as many rows together as before.
   */
  lemma InsertThenDelete(s: Store, dest: string, values: Row, srcTable: string, rowId: string)
    requires IdColumn in values && srcTable != dest
    requires srcTable in s.tables && rowId in s.tables[srcTable].rows
    requires InsertRow(s, dest, values).outcome.Ok?
    ensures var after := DeleteRow(InsertRow(s, dest, values).store, srcTable, rowId).store;
      && srcTable in after.tables && dest in after.tables
      && after.tables[srcTable].rows == s.tables[srcTable].rows - {rowId}
      && after.tables[dest].rows == s.tables[dest].rows[values[IdColumn] := values]
      && |after.tables[srcTable].rows| + |after.tables[dest].rows| ==
         |s.tables[srcTable].rows| + |s.tables[dest].rows|
  {
    var ins := InsertRow(s, dest, values);
    assert ins.store.tables[srcTable] == s.tables[srcTable];
    MapSizes(s.tables[dest].rows, values[IdColumn], values, s.tables[srcTable].rows, rowId);
  }

  lemma MapSizes(m: map<string, Row>, k: string, v: Row, n: map<string, Row>, j: string)
    requires k !in m && j in n
    ensures |m[k := v]| == |m| + 1
    ensures |n - {j}| == |n| - 1
  {
    assert m[k := v].Keys == m.Keys + {k};
    assert (n - {j}).Keys == n.Keys - {j};
  }
}

=== FILE: importer.dfy ===
/**
 * The upsert loop of `import_file_to_table`, after the file has been read
 * into rows of text cells.  All rows run in one transaction: a row whose
 * id is non-empty and present updates that row, any other row is
 * inserted; an error rolls every table change back.  The audit entries of
 * the rows processed before the error were already written and stay.
 */
module Importer {
  import opened Wrappers
  import opened RecordStore

  /** `{c: row.get(c, "") for c in cols}`: one cell per table column, "" where the file has none. */
  function RowDict(cols: seq<string>, incoming: map<string, string>): (d: Row)
    ensures forall c :: c in d <==> c in cols
    ensures forall c :: c in d ==> d[c] == (if c in incoming then incoming[c] else "")
  {
    map c | c in cols :: if c in incoming then incoming[c] else ""
  }

  /** How one incoming row was applied: the table afterwards, its audit entry, and whether it was an update. */
  datatype Applied = Applied(table: Table, entry: AuditEntry, isUpdate: bool)

  /** The id the row is keyed by: its `id` cell, "" when blank. */
  function KeyOf(cols: seq<string>, incoming: map<string, string>): string {
    var d := RowDict(cols, incoming);
    if IdColumn in d then d[IdColumn] else ""
  }

  /**
   * One iteration of the loop: a non-empty id already present updates all
   * other columns of that row; a non-empty new id is inserted; a blank id
   * is inserted under the empty key, which the primary key refuses when a
   * row already has it.
   */
  function ApplyRow(t: Table, known: bool, name: string, incoming: map<string, string>): (r: Result<Applied, StoreError>)
    requires known ==> IdColumn in t.columns
    ensures r.Err? <==> !known || (KeyOf(t.columns, incoming) == "" && "" in t.rows)
    ensures r.Ok? ==> (r.value.isUpdate <==> KeyOf(t.columns, incoming) != "" && KeyOf(t.columns, incoming) in t.rows)
    ensures r.Ok? ==> r.value.table.columns == t.columns
    ensures r.Ok? && r.value.isUpdate ==>
      var id := KeyOf(t.columns, incoming);
      var d := RowDict(t.columns, incoming);
      && r.value.table.rows == t.rows[id := t.rows[id] + (d - {IdColumn})]
      && r.value.entry == ImportUpdateEntry(name, id, d)
    ensures r.Ok? && !r.value.isUpdate ==>
      var id := KeyOf(t.columns, incoming);
      var d := RowDict(t.columns, incoming);
      && id !in t.rows
      && r.value.table.rows == t.rows[id := d]
      && r.value.entry == ImportInsertEntry(name, id, d)
  {
    if !known then Err(NoSuchTable(name))
    else
      var d := RowDict(t.columns, incoming);
      var id := d[IdColumn];
      if id != "" && id in t.rows then
        Ok(Applied(t.(rows := t.rows[id := t.rows[id] + (d - {IdColumn})]), ImportUpdateEntry(name, id, d), true))
      else if id in t.rows then Err(PrimaryKeyConflict(id))
      else Ok(Applied(t.(rows := t.rows[id := d]), ImportInsertEntry(name, id, d), false))
  }

  /** The state of the batch: the working table, the entries logged, the counters, and the error if one stopped it. */
  datatype Batch = Batch(table: Table, entries: seq<AuditEntry>, inserted: nat, updated: nat, failure: Option<StoreError>)

  /** Every entry records an import insert or update into table `name`. */
  predicate ImportEntries(entries: seq<AuditEntry>, name: string) {
    |entries| == 0 ||
    ((entries[0].ImportInsertEntry? || entries[0].ImportUpdateEntry?) && entries[0].table == name &&
     ImportEntries(entries[1..], name))
  }

  /** How many of the entries record an update of an existing row. */
  function UpdateEntries(entries: seq<AuditEntry>): (n: nat)
    ensures n <= |entries|
  {
    if |entries| == 0 then 0
    else (if entries[0].ImportUpdateEntry? then 1 else 0) + UpdateEntries(entries[1..])
  }

  /** The batch's counters agree with its log: `updated` counts the update entries, `inserted` the rest. */
  predicate CountsEntries(b: Batch) {
    b.updated == UpdateEntries(b.entries) && b.inserted == |b.entries| - b.updated
  }

  /** `ImportEntries` entry by entry. */
  lemma {:induction false} ImportEntriesAt(entries: seq<AuditEntry>, name: string)
    ensures ImportEntries(entries, name) <==>
      forall k :: 0 <= k < |entries| ==>
        (entries[k].ImportInsertEntry? || entries[k].ImportUpdateEntry?) && entries[k].table == name
    decreases |entries|
  {
    if |entries| > 0 {
      ImportEntriesAt(entries[1..], name);
      assert forall k :: 1 <= k < |entries| ==> entries[k] == entries[1..][k - 1];
    }
  }

  /** The loop over the incoming rows, stopping at the first error. */
  function ImportLoop(t: Table, known: bool, name: string, incoming: seq<map<string, string>>): (b: Batch)
    requires known ==> IdColumn in t.columns
    ensures b.failure.None? ==> b.inserted + b.updated == |incoming| == |b.entries|
    ensures b.failure.Some? ==> |b.entries| < |incoming|
    ensures b.table.columns == t.columns
    ensures ImportEntries(b.entries, name)
    ensures CountsEntries(b)
    decreases |incoming|
  {
    if |incoming| == 0 then Batch(t, [], 0, 0, None)
    else match ApplyRow(t, known, name, incoming[0])
      case Err(e) => Batch(t, [], 0, 0, Some(e))
      case Ok(applied) =>
        var rest := ImportLoop(applied.table, known, name, incoming[1..]);
        var entries := [applied.entry] + rest.entries;
        assert entries[1..] == rest.entries;
        Batch(rest.table, entries,
              rest.inserted + (if applied.isUpdate then 0 else 1),
              rest.updated + (if applied.isUpdate then 1 else 0),
              rest.failure)
  }

  datatype ImportOutcome = Imported(inserted: nat, updated: nat) | ImportFailed(error: StoreError)

  /**
   * `import_file_to_table` from the rows onwards, as written: the batch's
   * audit entries are appended whether or not it commits.
   */
  function ImportRows(s: Store, name: string, incoming: seq<map<string, string>>): (r: (Store, ImportOutcome))
    requires name in s.tables ==> IdColumn in s.tables[name].columns
    ensures s.audit <= r.0.audit
    ensures ImportEntries(r.0.audit[|s.audit|..], name)
    ensures r.1.Imported? ==> r.1.inserted + r.1.updated == |incoming| == |r.0.audit| - |s.audit|
    ensures r.1.Imported? ==> r.1.updated == UpdateEntries(r.0.audit[|s.audit|..])
    ensures r.1.ImportFailed? ==> r.0.tables == s.tables
    ensures r.1.Imported? ==> OthersUnchanged(s, r.0, name)
    ensures name !in s.tables && |incoming| > 0 ==> r.1 == ImportFailed(NoSuchTable(name))
  {
    var known := name in s.tables;
    var t := if known then s.tables[name] else Table([], map[]);
    var b := ImportLoop(t, known, name, incoming);
    var logged := s.audit + b.entries;
    match b.failure
    case Some(e) => (Store(s.tables, logged), ImportFailed(e))
    case None =>
      (Store(if known then s.tables[name := b.table] else s.tables, logged), Imported(b.inserted, b.updated))
  }

  /** One turn of the loop: the first row is applied, then the rest run on the table it leaves. */
  lemma LoopStep(t: Table, known: bool, name: string, incoming: seq<map<string, string>>)
    requires known ==> IdColumn in t.columns
    requires |incoming| > 0
    ensures ApplyRow(t, known, name, incoming[0]).Err? ==>
      ImportLoop(t, known, name, incoming) == Batch(t, [], 0, 0, Some(ApplyRow(t, known, name, incoming[0]).error))
    ensures ApplyRow(t, known, name, incoming[0]).Ok? ==>
      var applied := ApplyRow(t, known, name, incoming[0]).value;
      var rest := ImportLoop(applied.table, known, name, incoming[1..]);
      && ImportLoop(t, known, name, incoming).table == rest.table
      && ImportLoop(t, known, name, incoming).entries == [applied.entry] + rest.entries
      && ImportLoop(t, known, name, incoming).failure == rest.failure
  {
  }

  /** The ids the incoming rows are keyed by. */
  function KeysOf(cols: seq<string>, incoming: seq<map<string, string>>): set<string> {
    set k | 0 <= k < |incoming| :: KeyOf(cols, incoming[k])
  }

  lemma KeysOfCons(cols: seq<string>, incoming: seq<map<string, string>>)
    requires |incoming| > 0
    ensures KeysOf(cols, incoming) == {KeyOf(cols, incoming[0])} + KeysOf(cols, incoming[1..])
  {
    forall id | id in KeysOf(cols, incoming) ensures id in {KeyOf(cols, incoming[0])} + KeysOf(cols, incoming[1..]) {
      var k :| 0 <= k < |incoming| && KeyOf(cols, incoming[k]) == id;
      if k > 0 { assert incoming[1..][k - 1] == incoming[k]; }
    }
    forall id | id in KeysOf(cols, incoming[1..]) ensures id in KeysOf(cols, incoming) {
      var k :| 0 <= k < |incoming[1..]| && KeyOf(cols, incoming[1..][k]) == id;
      assert incoming[1..][k] == incoming[k + 1];
    }
  }

  /** No row after the `k`-th carries the same id. */
  predicate LastWithKey(cols: seq<string>, incoming: seq<map<string, string>>, k: int)
    requires 0 <= k < |incoming|
  {
    forall j :: k < j < |incoming| ==> KeyOf(cols, incoming[j]) != KeyOf(cols, incoming[k])
  }

  /**
   * A failed batch stopped at its first refused row: the rows before it
   * were all applied, and their entries are exactly the ones logged.
   */
  lemma {:induction false} LoopStopsAtFirstRefusedRow(t: Table, known: bool, name: string, incoming: seq<map<string, string>>)
    requires known ==> IdColumn in t.columns
    requires ImportLoop(t, known, name, incoming).failure.Some?
    ensures var b := ImportLoop(t, known, name, incoming);
      var n := |b.entries|;
      var before := ImportLoop(t, known, name, incoming[..n]);
      && n < |incoming|
      && before.failure.None? && before.entries == b.entries
      && ApplyRow(before.table, known, name, incoming[n]) == Err(b.failure.value)
    decreases |incoming|, 1
  {
    LoopStep(t, known, name, incoming);
    if ApplyRow(t, known, name, incoming[0]).Err? {
      assert incoming[..0] == [];
    } else {
      LoopStopsAfterFirstRow(t, known, name, incoming);
    }
  }

  /** The inductive step of `LoopStopsAtFirstRefusedRow`, for a first row that applies. */
  lemma {:induction false} LoopStopsAfterFirstRow(t: Table, known: bool, name: string, incoming: seq<map<string, string>>)
    requires known ==> IdColumn in t.columns
    requires ImportLoop(t, known, name, incoming).failure.Some?
    requires |incoming| > 0 && ApplyRow(t, known, name, incoming[0]).Ok?
    ensures var b := ImportLoop(t, known, name, incoming);
      var n := |b.entries|;
      var before := ImportLoop(t, known, name, incoming[..n]);
      && n < |incoming|
      && before.failure.None? && before.entries == b.entries
      && ApplyRow(before.table, known, name, incoming[n]) == Err(b.failure.value)
    decreases |incoming|, 0
  {
    var applied := ApplyRow(t, known, name, incoming[0]).value;
    var tail := incoming[1..];
    var b := ImportLoop(t, known, name, incoming);
    var rest := ImportLoop(applied.table, known, name, tail);
    assert b.entries == [applied.entry] + rest.entries && |b.entries| == |rest.entries| + 1 &&
        b.failure == rest.failure by {
      LoopStep(t, known, name, incoming);
    }
    LoopStopsAtFirstRefusedRow(applied.table, known, name, tail);
    var m := |rest.entries|;
    var before' := ImportLoop(applied.table, known, name, tail[..m]);
    PrefixAfterHead(incoming, m);
    LoopPrefixStep(t, known, name, incoming, m);
    var n := |b.entries|;
    assert n == m + 1;
    var before := ImportLoop(t, known, name, incoming[..n]);
    assert before.table == before'.table && before.entries == b.entries && before.failure.None?;
    assert incoming[n] == tail[m];
    assert ApplyRow(before.table, known, name, incoming[n]) == Err(b.failure.value);
  }

  /** Running the first `m + 1` rows is running the first row, then the next `m`. */
  lemma LoopPrefixStep(t: Table, known: bool, name: string, incoming: seq<map<string, string>>, m: nat)
    requires known ==> IdColumn in t.columns
    requires m < |incoming| - 1 && ApplyRow(t, known, name, incoming[0]).Ok?
    ensures var applied := ApplyRow(t, known, name, incoming[0]).value;
      var before := ImportLoop(t, known, name, incoming[..m + 1]);
      var before' := ImportLoop(applied.table, known, name, incoming[1..][..m]);
      && before.entries == [applied.entry] + before'.entries
      && before.failure == before'.failure
      && before.table == before'.table
  {
    PrefixAfterHead(incoming, m);
    LoopStep(t, known, name, incoming[..m + 1]);
  }

  /** A prefix of `m + 1` rows is the first row followed by a prefix of `m` of the rest. */
  lemma PrefixAfterHead<T>(xs: seq<T>, m: nat)
    requires m < |xs| - 1
    ensures xs[..m + 1][0] == xs[0]
    ensures xs[..m + 1][1..] == xs[1..][..m]
    ensures xs[m + 1] == xs[1..][m]
  {
  }

  /** A row no incoming id names keeps its place and its contents through the loop. */
  lemma {:induction false} LoopKeepsUntouched(t: Table, name: string, incoming: seq<map<string, string>>, id: string)
    requires IdColumn in t.columns
    requires ImportLoop(t, true, name, incoming).failure.None?
    requires id in t.rows && id !in KeysOf(t.columns, incoming)
    ensures id in ImportLoop(t, true, name, incoming).table.rows
    ensures ImportLoop(t, true, name, incoming).table.rows[id] == t.rows[id]
    decreases |incoming|
  {
    if |incoming| > 0 {
      LoopStep(t, true, name, incoming);
      var applied := ApplyRow(t, true, name, incoming[0]).value;
      KeysOfCons(t.columns, incoming);
      LoopKeepsUntouched(applied.table, name, incoming[1..], id);
    }
  }

  /** After the loop the table holds its old ids and the incoming ones, and no others. */
  lemma {:induction false} LoopKeys(t: Table, name: string, incoming: seq<map<string, string>>)
    requires IdColumn in t.columns
    requires ImportLoop(t, true, name, incoming).failure.None?
    ensures ImportLoop(t, true, name, incoming).table.rows.Keys == t.rows.Keys + KeysOf(t.columns, incoming)
    decreases |incoming|
  {
    if |incoming| > 0 {
      LoopStep(t, true, name, incoming);
      var applied := ApplyRow(t, true, name, incoming[0]).value;
      var key := KeyOf(t.columns, incoming[0]);
      assert applied.table.rows.Keys == t.rows.Keys + {key};
      LoopKeys(applied.table, name, incoming[1..]);
      KeysOfCons(t.columns, incoming);
    } else {
      assert KeysOf(t.columns, incoming) == {};
    }
  }

  /** The row under `id` exists and holds `d`'s value in every non-id column of `cols`. */
  predicate CarriesCells(rows: map<string, Row>, id: string, cols: seq<string>, d: Row)
    requires forall c :: c in cols ==> c in d
  {
    && id in rows
    && forall c :: c in cols && c != IdColumn ==> c in rows[id] && rows[id][c] == d[c]
  }

  /** The last incoming row with a given id decides every non-id cell of that row. */
  lemma {:induction false} LoopLastWriteWins(t: Table, name: string, incoming: seq<map<string, string>>, k: nat)
    requires IdColumn in t.columns
    requires ImportLoop(t, true, name, incoming).failure.None?
    requires k < |incoming| && LastWithKey(t.columns, incoming, k)
    ensures CarriesCells(ImportLoop(t, true, name, incoming).table.rows, KeyOf(t.columns, incoming[k]),
                         t.columns, RowDict(t.columns, incoming[k]))
    decreases |incoming|, 1
  {
    if k == 0 {
      HeadWritesLast(t, name, incoming);
    } else {
      LaterWritesLast(t, name, incoming, k);
    }
  }

  /** The first row wins when no later row carries its id: nothing after it touches that row. */
  lemma HeadWritesLast(t: Table, name: string, incoming: seq<map<string, string>>)
    requires IdColumn in t.columns
    requires ImportLoop(t, true, name, incoming).failure.None?
    requires 0 < |incoming| && LastWithKey(t.columns, incoming, 0)
    ensures CarriesCells(ImportLoop(t, true, name, incoming).table.rows, KeyOf(t.columns, incoming[0]),
                         t.columns, RowDict(t.columns, incoming[0]))
  {
    var tail := incoming[1..];
    var first := ApplyRow(t, true, name, incoming[0]);
    assert first.Ok? && ImportLoop(first.value.table, true, name, tail).failure.None? &&
        ImportLoop(t, true, name, incoming).table == ImportLoop(first.value.table, true, name, tail).table by {
      LoopStep(t, true, name, incoming);
    }
    var applied := first.value;
    var id := KeyOf(t.columns, incoming[0]);
    LastHeadKeyNotInTail(t.columns, incoming);
    AppliedRowCells(t, name, incoming[0]);
    LoopKeepsUntouched(applied.table, name, tail, id);
    var rows := ImportLoop(applied.table, true, name, tail).table.rows;
    assert rows[id] == applied.table.rows[id];
    assert CarriesCells(rows, id, t.columns, RowDict(t.columns, incoming[0]));
  }

  /** A row after the first is still the last with its id among the remaining rows, so the loop's rest decides it. */
  lemma {:induction false} LaterWritesLast(t: Table, name: string, incoming: seq<map<string, string>>, k: nat)
    requires IdColumn in t.columns
    requires ImportLoop(t, true, name, incoming).failure.None?
    requires 0 < k < |incoming| && LastWithKey(t.columns, incoming, k)
    ensures CarriesCells(ImportLoop(t, true, name, incoming).table.rows, KeyOf(t.columns, incoming[k]),
                         t.columns, RowDict(t.columns, incoming[k]))
    decreases |incoming|, 0
  {
    var tail := incoming[1..];
    var first := ApplyRow(t, true, name, incoming[0]);
    assert first.Ok? && first.value.table.columns == t.columns &&
        ImportLoop(first.value.table, true, name, tail).failure.None? &&
        ImportLoop(t, true, name, incoming).table == ImportLoop(first.value.table, true, name, tail).table by {
      LoopStep(t, true, name, incoming);
    }
    LastWithKeyInTail(t.columns, incoming, k);
    LoopLastWriteWins(first.value.table, name, tail, k - 1);
  }

  /** The first row, when no later row has its id, leaves its id out of the rest's keys. */
  lemma LastHeadKeyNotInTail(cols: seq<string>, incoming: seq<map<string, string>>)
    requires 0 < |incoming| && LastWithKey(cols, incoming, 0)
    ensures KeyOf(cols, incoming[0]) !in KeysOf(cols, incoming[1..])
  {
    var tail := incoming[1..];
    forall j | 0 <= j < |tail| ensures KeyOf(cols, tail[j]) != KeyOf(cols, incoming[0]) {
      assert tail[j] == incoming[j + 1];
    }
  }

  /** Dropping the first row keeps a later row the last with its id. */
  lemma LastWithKeyInTail(cols: seq<string>, incoming: seq<map<string, string>>, k: nat)
    requires 0 < k < |incoming| && LastWithKey(cols, incoming, k)
    ensures incoming[1..][k - 1] == incoming[k]
    ensures LastWithKey(cols, incoming[1..], k - 1)
  {
    var tail := incoming[1..];
    forall j | k - 1 < j < |tail| ensures KeyOf(cols, tail[j]) != KeyOf(cols, tail[k - 1]) {
      assert tail[j] == incoming[j + 1];
    }
  }

  /** The row an applied import row leaves under its id carries that row's non-id cells. */
  lemma AppliedRowCells(t: Table, name: string, incoming: map<string, string>)
    requires IdColumn in t.columns
    requires ApplyRow(t, true, name, incoming).Ok?
    ensures CarriesCells(ApplyRow(t, true, name, incoming).value.table.rows, KeyOf(t.columns, incoming),
                         t.columns, RowDict(t.columns, incoming))
  {
  }

  /**
   * What a committed import leaves in its table: the old ids and the
   * incoming ones; rows no incoming id names unchanged; and for every
   * incoming id, the non-id cells of the last row carrying it.
   */
  lemma CommittedImportContents(s: Store, name: string, incoming: seq<map<string, string>>)
    requires name in s.tables && IdColumn in s.tables[name].columns
    requires ImportRows(s, name, incoming).1.Imported?
    ensures var before := s.tables[name];
      var after := ImportRows(s, name, incoming).0.tables;
      && name in after
      && after[name].rows.Keys == before.rows.Keys + KeysOf(before.columns, incoming)
      && (forall id :: id in before.rows && id !in KeysOf(before.columns, incoming) ==>
            after[name].rows[id] == before.rows[id])
      && (forall k :: 0 <= k < |incoming| && LastWithKey(before.columns, incoming, k) ==>
            forall c :: c in before.columns && c != IdColumn ==>
              c in after[name].rows[KeyOf(before.columns, incoming[k])] &&
              after[name].rows[KeyOf(before.columns, incoming[k])][c] == RowDict(before.columns, incoming[k])[c])
  {
    var t := s.tables[name];
    var b := ImportLoop(t, true, name, incoming);
    assert ImportRows(s, name, incoming).0.tables[name] == b.table;
    LoopKeys(t, name, incoming);
    forall id | id in t.rows && id !in KeysOf(t.columns, incoming) ensures b.table.rows[id] == t.rows[id] {
      LoopKeepsUntouched(t, name, incoming, id);
    }
    forall k | 0 <= k < |incoming| && LastWithKey(t.columns, incoming, k)
      ensures forall c :: c in t.columns && c != IdColumn ==>
        c in b.table.rows[KeyOf(t.columns, incoming[k])] &&
        b.table.rows[KeyOf(t.columns, incoming[k])][c] == RowDict(t.columns, incoming[k])[c]
    {
      LoopLastWriteWins(t, name, incoming, k);
    }
  }

  /**
   * A failed import as written: the tables are as before, and the log
   * gained exactly the entries of the rows applied before the first
   * refused one.
   */
  lemma FailedImportLogsAppliedPrefix(s: Store, name: string, incoming: seq<map<string, string>>)
    requires name in s.tables ==> IdColumn in s.tables[name].columns
    requires ImportRows(s, name, incoming).1.ImportFailed?
    ensures var r := ImportRows(s, name, incoming);
      var known := name in s.tables;
      var t := if known then s.tables[name] else Table([], map[]);
      var n := |r.0.audit| - |s.audit|;
      var before := ImportLoop(t, known, name, incoming[..n]);
      && 0 <= n < |incoming|
      && r.0.tables == s.tables
      && before.failure.None?
      && r.0.audit == s.audit + before.entries
      && ApplyRow(before.table, known, name, incoming[n]) == Err(r.1.error)
  {
    var known := name in s.tables;
    var t := if known then s.tables[name] else Table([], map[]);
    var b := ImportLoop(t, known, name, incoming);
    var r := ImportRows(s, name, incoming);
    assert b.failure.Some? && r.0.tables == s.tables && r.0.audit == s.audit + b.entries && r.1.error == b.failure.value;
    assert |r.0.audit| - |s.audit| == |b.entries|;
    LoopStopsAtFirstRefusedRow(t, known, name, incoming);
  }

  /** An import keeps the tables well formed. */
  lemma {:induction false} ImportLoopPreservesWellFormed(t: Table, known: bool, name: string, incoming: seq<map<string, string>>)
    requires known ==> IdColumn in t.columns
    requires WellFormedTable(t)
    ensures WellFormedTable(ImportLoop(t, known, name, incoming).table)
    decreases |incoming|
  {
    if |incoming| > 0 {
      var r := ApplyRow(t, known, name, incoming[0]);
      if r.Ok? {
        var t' := r.value.table;
        var id := KeyOf(t.columns, incoming[0]);
        var d := RowDict(t.columns, incoming[0]);
        assert d[IdColumn] == id;
        assert WellFormedTable(t') by {
          forall k | k in t'.rows
            ensures IdColumn in t'.rows[k] && t'.rows[k][IdColumn] == k && (forall c :: c in t'.rows[k] ==> c in t'.columns)
          {
            if k != id { assert t'.rows[k] == t.rows[k]; }
          }
        }
        ImportLoopPreservesWellFormed(t', known, name, incoming[1..]);
      }
    }
  }

  /** A whole import, committed or rolled back, keeps the store well formed. */
  lemma ImportPreservesWellFormed(s: Store, name: string, incoming: seq<map<string, string>>)
    requires WellFormed(s)
    ensures WellFormed(ImportRows(s, name, incoming).0)
  {
    if name in s.tables {
      ImportLoopPreservesWellFormed(s.tables[name], true, name, incoming);
    }
  }

  /**
   * As written, the entries of the rows before a failing row stay in the
   * log although the rollback undid those rows: a blank id meeting an
   * existing blank id fails after the first row was logged as inserted.
   */
  lemma RolledBackImportStaysLogged()
    ensures var s := Store(map["t" := Table([IdColumn], map["" := map[IdColumn := ""]])], []);
      var r := ImportRows(s, "t", [map[IdColumn := "a"], map[IdColumn := ""]]);
      && r.1 == ImportFailed(PrimaryKeyConflict(""))
      && r.0.tables == s.tables
      && r.0.audit == [ImportInsertEntry("t", "a", map[IdColumn := "a"])]
  {
    var t := Table([IdColumn], map["" := map[IdColumn := ""]]);
    var first := map[IdColumn := "a"];
    var second := map[IdColumn := ""];
    assert RowDict(t.columns, first) == first;
    assert KeyOf(t.columns, first) == "a";
    var applied := ApplyRow(t, true, "t", first);
    assert applied.Ok? && !applied.value.isUpdate;
    assert RowDict(t.columns, second) == second;
    assert KeyOf(applied.value.table.columns, second) == "";
    assert ApplyRow(applied.value.table, true, "t", second) == Err(PrimaryKeyConflict(""));
    assert [first, second][1..] == [second];
    assert ImportLoop(applied.value.table, true, "t", [second]) ==
      Batch(applied.value.table, [], 0, 0, Some(PrimaryKeyConflict("")));
    assert ImportLoop(t, true, "t", [first, second]) ==
      Batch(applied.value.table, [ImportInsertEntry("t", "a", first)], 1, 0, Some(PrimaryKeyConflict("")));
  }

  /**
   * The import with its audit entries held back until the batch commits:
   * a failed import leaves the whole store, log included, as it was, and
   * a committed one logs exactly one entry per incoming row.
   */
  function ImportRowsAtomic(s: Store, name: string, incoming: seq<map<string, string>>): (r: (Store, ImportOutcome))
    requires name in s.tables ==> IdColumn in s.tables[name].columns
    ensures r.1.ImportFailed? ==> r.0 == s
    ensures r.1.Imported? ==>
      && r.1.inserted + r.1.updated == |incoming|
      && s.audit <= r.0.audit && |r.0.audit| == |s.audit| + |incoming|
      && OthersUnchanged(s, r.0, name)
    ensures r.1 == ImportRows(s, name, incoming).1
    ensures name !in s.tables && |incoming| > 0 ==> r.1 == ImportFailed(NoSuchTable(name))
  {
    var known := name in s.tables;
    var t := if known then s.tables[name] else Table([], map[]);
    var b := ImportLoop(t, known, name, incoming);
    match b.failure
    case Some(e) => (s, ImportFailed(e))
    case None =>
      (Store(if known then s.tables[name := b.table] else s.tables, s.audit + b.entries), Imported(b.inserted, b.updated))
  }

  /** The corrected import differs from the one as written only in the log of a failed batch. */
  lemma AtomicImportAgreesOnCommit(s: Store, name: string, incoming: seq<map<string, string>>)
    requires name in s.tables ==> IdColumn in s.tables[name].columns
    ensures ImportRowsAtomic(s, name, incoming).0.tables == ImportRows(s, name, incoming).0.tables
    ensures ImportRowsAtomic(s, name, incoming).1.Imported? ==>
      ImportRowsAtomic(s, name, incoming).0 == ImportRows(s, name, incoming).0
  {
  }
}

=== FILE: numerals.dfy ===
/**
 * The numeric literals Python's `int(str)` and `float(str)` accept, for
 * ASCII digits: optional surrounding whitespace, an optional sign, digit
 * groups joined by single underscores, and for `float` a decimal point,
 * an exponent and the words "inf", "infinity" and "nan".
 */
module Numerals {
  import opened Wrappers
  import opened Text

  /** A run of digits in which single underscores may separate two digits. */
  predicate DigitPart(s: string) {
    && |s| >= 1
    && IsDigit(s[0])
    && IsDigit(s[|s| - 1])
    && (forall k :: 0 <= k < |s| ==> IsDigit(s[k]) || s[k] == '_')
    && (forall k :: 0 <= k < |s| - 1 ==> !(s[k] == '_' && s[k + 1] == '_'))
  }

  /** The number of digits of `s`, underscores not counted. */
  function DigitCount(s: string): nat {
    if |s| == 0 then 0
    else DigitCount(s[..|s| - 1]) + (if IsDigit(s[|s| - 1]) then 1 else 0)
  }

  /** The value of the digits of `s` read in base ten, underscores skipped. */
  function DigitsValue(s: string): (v: nat)
    ensures v < Pow10(DigitCount(s))
  {
    if |s| == 0 then 0
    else if IsDigit(s[|s| - 1]) then
      var high := DigitsValue(s[..|s| - 1]);
      assert high + 1 <= Pow10(DigitCount(s[..|s| - 1]));
      10 * high + DigitValue(s[|s| - 1])
    else DigitsValue(s[..|s| - 1])
  }

  function Pow10(n: nat): (p: nat)
    ensures p >= 1
  {
    if n == 0 then 1 else 10 * Pow10(n - 1)
  }

  predicate IsSign(c: char) {
    c == '+' || c == '-'
  }

  /** The text `int(s)` accepts. */
  predicate IsIntText(s: string) {
    var t := Strip(s);
    if |t| >= 1 && IsSign(t[0]) then DigitPart(t[1..]) else DigitPart(t)
  }

  /** The value `int(s)` returns for a text it accepts. */
  function IntValue(s: string): int
    requires IsIntText(s)
  {
    var t := Strip(s);
    if t[0] == '-' then -(DigitsValue(t[1..]) as int)
    else if t[0] == '+' then DigitsValue(t[1..]) as int
    else DigitsValue(t) as int
  }

  /** `str(n)` for a natural number: its decimal digits, no leading zero. */
  function NaturalText(n: nat): (s: string)
    ensures |s| >= 1 && (forall k :: 0 <= k < |s| ==> IsDigit(s[k]))
    ensures DigitCount(s) == |s|
    ensures DigitsValue(s) == n
    decreases n
  {
    if n < 10 then [DigitChar(n)]
    else
      var s := NaturalText(n / 10) + [DigitChar(n % 10)];
      assert s[..|s| - 1] == NaturalText(n / 10);
      s
  }

  /** `str(n)` for an integer. */
  function IntToText(n: int): string {
    if n < 0 then "-" + NaturalText(-n) else NaturalText(n)
  }

  /** `int(str(n)) == n`. */
  lemma IntToTextRoundTrip(n: int)
    ensures IsIntText(IntToText(n))
    ensures IntValue(IntToText(n)) == n
  {
    var s := IntToText(n);
    var digits := NaturalText(if n < 0 then -n else n);
    NaturalTextIsDigitPart(if n < 0 then -n else n);
    assert Strip(s) == s by {
      assert s[|s| - 1] == digits[|digits| - 1];
      StripUnpadded(s);
    }
    if n < 0 { assert s[1..] == digits; }
  }

  /** `str(n)` of a natural number is a digit part with no whitespace at its ends. */
  lemma NaturalTextIsDigitPart(n: nat)
    ensures DigitPart(NaturalText(n))
    ensures !IsSpace(NaturalText(n)[0]) && !IsSpace(NaturalText(n)[|NaturalText(n)| - 1])
  {
    var s := NaturalText(n);
    DigitIsNotSpace(s[0]);
    DigitIsNotSpace(s[|s| - 1]);
  }

  /** What `float(s)` makes of a text. */
  datatype FloatText =
    | Finite(x: real)   // a decimal literal and its exact value
    | NonFinite         // "inf", "infinity" or "nan" in any letter case
    | Invalid           // float(s) raises ValueError

  /** `s` equals the lower-case ASCII word `w` up to letter case. */
  predicate EqualsIgnoringCase(s: string, w: string)
    requires forall k :: 0 <= k < |w| ==> 'a' <= w[k] <= 'z'
  {
    |s| == |w| && forall k :: 0 <= k < |s| ==> s[k] == w[k] || s[k] as int == w[k] as int - 32
  }

  predicate IsNonFiniteWord(s: string) {
    EqualsIgnoringCase(s, "inf") || EqualsIgnoringCase(s, "infinity") || EqualsIgnoringCase(s, "nan")
  }

  /** The exponent after 'e' or 'E': an optional sign and a digit part. */
  function ParseExponent(s: string): Option<int> {
    if |s| >= 1 && IsSign(s[0]) then
      if DigitPart(s[1..]) then
        Some(if s[0] == '-' then -(DigitsValue(s[1..]) as int) else DigitsValue(s[1..]) as int)
      else None
    else if DigitPart(s) then Some(DigitsValue(s) as int)
    else None
  }

  /** The digits around an optional decimal point: "12", "12.", "12.5" or ".5". */
  function ParseMantissa(s: string): Option<real> {
    if '.' in s then
      var i := IndexOf(s, '.');
      var whole := s[..i];
      var frac := s[i + 1..];
      var fracValue := DigitsValue(frac) as real / Pow10(DigitCount(frac)) as real;
      if DigitPart(whole) && (frac == [] || DigitPart(frac)) then
        Some(DigitsValue(whole) as real + fracValue)
      else if whole == [] && DigitPart(frac) then
        Some(fracValue)
      else None
    else if DigitPart(s) then Some(DigitsValue(s) as real)
    else None
  }

  function Scale(x: real, e: int): real {
    if e >= 0 then x * Pow10(e) as real else x / Pow10(-e) as real
  }

  /** An unsigned decimal literal with an optional exponent. */
  function ParseDecimal(s: string): Option<real> {
    var ePos := if 'e' in s then IndexOf(s, 'e') else if 'E' in s then IndexOf(s, 'E') else |s|;
    var mantissa := ParseMantissa(s[..ePos]);
    if mantissa.None? then None
    else if ePos == |s| then mantissa
    else
      var exponent := ParseExponent(s[ePos + 1..]);
      if exponent.None? then None else Some(Scale(mantissa.value, exponent.value))
  }

  /** `float(s)` for a text `s`. */
  function ParseFloatText(s: string): FloatText {
    var t := Strip(s);
    var negative := |t| >= 1 && t[0] == '-';
    var body := if |t| >= 1 && IsSign(t[0]) then t[1..] else t;
    if IsNonFiniteWord(body) then NonFinite
    else match ParseDecimal(body)
      case Some(x) => Finite(if negative then -x else x)
      case None => Invalid
  }

  predicate IsFloatText(s: string) {
    !ParseFloatText(s).Invalid?
  }

  /** A text holding a comma is never a Python numeric literal. */
  lemma CommaIsNeverFloat(s: string)
    requires ',' in s
    ensures !IsIntText(s)
    ensures !IsFloatText(s)
  {
    var t := Strip(s);
    StripKeepsNonSpace(s, ',');
    var body := if |t| >= 1 && IsSign(t[0]) then t[1..] else t;
    assert ',' in body by {
      if |t| >= 1 && IsSign(t[0]) {
        assert t == [t[0]] + t[1..];
      }
    }
    NoCommaInDigitPart(body);
    if |t| >= 1 && IsSign(t[0]) {
      NoCommaInDigitPart(t[1..]);
    }
    var k :| 0 <= k < |body| && body[k] == ',';
    NonFiniteWordIsLetters(body);
    assert body[k] == ',';
    DecimalRejectsComma(body);
  }

  predicate IsAsciiLetter(c: char) {
    ('a' <= c <= 'z') || ('A' <= c <= 'Z')
  }

  lemma NonFiniteWordIsLetters(s: string)
    ensures IsNonFiniteWord(s) ==> forall k :: 0 <= k < |s| ==> IsAsciiLetter(s[k])
  {
  }

  lemma NoCommaInDigitPart(s: string)
    ensures DigitPart(s) ==> ',' !in s
  {
  }

  lemma MantissaRejectsComma(s: string)
    requires ',' in s
    ensures ParseMantissa(s).None?
  {
    NoCommaInDigitPart(s);
    if '.' in s {
      var i := IndexOf(s, '.');
      var k :| 0 <= k < |s| && s[k] == ',';
      if k < i {
        assert s[..i][k] == ',';
        NoCommaInDigitPart(s[..i]);
      } else {
        assert s[i + 1..][k - i - 1] == ',';
        NoCommaInDigitPart(s[i + 1..]);
      }
    }
  }

  lemma ExponentRejectsComma(s: string)
    requires ',' in s
    ensures ParseExponent(s).None?
  {
    NoCommaInDigitPart(s);
    if |s| >= 1 && IsSign(s[0]) {
      assert s == [s[0]] + s[1..];
      NoCommaInDigitPart(s[1..]);
    }
  }

  lemma DecimalRejectsComma(s: string)
    requires ',' in s
    ensures ParseDecimal(s).None?
  {
    var ePos := if 'e' in s then IndexOf(s, 'e') else if 'E' in s then IndexOf(s, 'E') else |s|;
    var k :| 0 <= k < |s| && s[k] == ',';
    if k < ePos {
      assert s[..ePos][k] == ',';
      MantissaRejectsComma(s[..ePos]);
    } else {
      assert k != ePos;
      assert s[ePos + 1..][k - ePos - 1] == ',';
      ExponentRejectsComma(s[ePos + 1..]);
    }
  }

  /** Every text `int()` accepts, `float()` accepts with the same value. */
  lemma IntTextIsFloatText(s: string)
    requires IsIntText(s)
    ensures ParseFloatText(s) == Finite(IntValue(s) as real)
  {
    var t := Strip(s);
    var body := if |t| >= 1 && IsSign(t[0]) then t[1..] else t;
    var v := DigitsValue(body) as real;
    assert DigitPart(body);
    assert !IsNonFiniteWord(body) && ParseDecimal(body) == Some(v) by { DigitPartIsDecimal(body); }
    assert IsDigit(t[0]) ==> body == t;
    var x := if t[0] == '-' then -v else v;
    assert ParseFloatText(s) == Finite(x);
    assert IntValue(s) as real == x;
  }

  /** A digit part is a decimal literal without point or exponent, of the same value. */
  lemma DigitPartIsDecimal(body: string)
    requires DigitPart(body)
    ensures !IsNonFiniteWord(body)
    ensures ParseDecimal(body) == Some(DigitsValue(body) as real)
  {
    assert IsDigit(body[0]);
    assert 'e' !in body && 'E' !in body && '.' !in body by {
      forall k | 0 <= k < |body|
        ensures body[k] != 'e' && body[k] != 'E' && body[k] != '.'
      {
        assert IsDigit(body[k]) || body[k] == '_';
      }
    }
    assert body[..|body|] == body;
  }
}

=== FILE: ordering.dfy ===
/**
 * Python's `sorted` on the two kinds of keys the chart uses: (year, month)
 * tuples, compared element by element, and strings, compared by code
 * point.  A set is sorted by inserting its elements one at a time.
 */
module Ordering {
  /** `less` is irreflexive, transitive and relates any two distinct values one way or the other. */
  ghost predicate StrictTotalOrder<T(!new)>(less: (T, T) -> bool) {
    && (forall a :: !less(a, a))
    && (forall a, b, c :: less(a, b) && less(b, c) ==> less(a, c))
    && (forall a, b :: a != b ==> less(a, b) || less(b, a))
  }

  /** Strictly increasing, hence also free of repetitions. */
  predicate Sorted<T>(xs: seq<T>, less: (T, T) -> bool) {
    forall i, j :: 0 <= i < j < |xs| ==> less(xs[i], xs[j])
  }

  /** `x` inserted into a sorted sequence at its place. */
  function Insert<T(!new)>(xs: seq<T>, x: T, less: (T, T) -> bool): (r: seq<T>)
    requires StrictTotalOrder(less)
    requires Sorted(xs, less) && x !in xs
    ensures Sorted(r, less)
    ensures |r| == |xs| + 1
    ensures forall y :: y in r <==> y in xs || y == x
  {
    if |xs| == 0 || less(x, xs[0]) then
      assert forall j :: 0 < j < |xs| ==> less(xs[0], xs[j]);
      [x] + xs
    else
      var rest := Insert(xs[1..], x, less);
      assert less(xs[0], x);
      assert forall y :: y in rest ==> less(xs[0], y) by {
        forall y | y in rest ensures less(xs[0], y) {
          if y != x {
            var j :| 0 <= j < |xs[1..]| && xs[1..][j] == y;
            assert xs[j + 1] == y;
          }
        }
      }
      [xs[0]] + rest
  }

  /** `sorted(s)` for a set of keys. */
  method SortSet<T(==, !new)>(s: set<T>, less: (T, T) -> bool) returns (r: seq<T>)
    requires StrictTotalOrder(less)
    ensures Sorted(r, less)
    ensures |r| == |s|
    ensures forall y :: y in r <==> y in s
  {
    r := [];
    var rest := s;
    while rest != {}
      invariant Sorted(r, less)
      invariant forall y :: y in r <==> y in s && y !in rest
      invariant rest <= s
      invariant |r| + |rest| == |s|
      decreases |rest|
    {
      var x :| x in rest;
      r := Insert(r, x, less);
      rest := rest - {x};
    }
  }

  /** Tuple order on (year, month). */
  predicate MonthBefore(a: (int, int), b: (int, int)) {
    a.0 < b.0 || (a.0 == b.0 && a.1 < b.1)
  }

  lemma MonthOrderIsStrictTotal()
    ensures StrictTotalOrder(MonthBefore)
  {
  }

  /** String order: a proper prefix comes first, otherwise the first differing character decides. */
  predicate TextBefore(a: string, b: string) {
    if |a| == 0 then |b| > 0
    else if |b| == 0 then false
    else a[0] < b[0] || (a[0] == b[0] && TextBefore(a[1..], b[1..]))
  }

  lemma {:induction false} TextBeforeIrreflexive(a: string)
    ensures !TextBefore(a, a)
  {
    if |a| > 0 { TextBeforeIrreflexive(a[1..]); }
  }

  lemma {:induction false} TextBeforeTransitive(a: string, b: string, c: string)
    requires TextBefore(a, b) && TextBefore(b, c)
    ensures TextBefore(a, c)
  {
    if |a| > 0 && a[0] == b[0] && b[0] == c[0] {
      TextBeforeTransitive(a[1..], b[1..], c[1..]);
    }
  }

  lemma {:induction false} TextBeforeTotal(a: string, b: string)
    requires a != b
    ensures TextBefore(a, b) || TextBefore(b, a)
  {
    if |a| > 0 && |b| > 0 && a[0] == b[0] {
      assert a == [a[0]] + a[1..] && b == [b[0]] + b[1..];
      TextBeforeTotal(a[1..], b[1..]);
    }
  }

  lemma TextOrderIsStrictTotal()
    ensures StrictTotalOrder(TextBefore)
  {
    forall a: string ensures !TextBefore(a, a) {
      TextBeforeIrreflexive(a);
    }
    forall a: string, b: string, c: string | TextBefore(a, b) && TextBefore(b, c)
      ensures TextBefore(a, c)
    {
      TextBeforeTransitive(a, b, c);
    }
    forall a: string, b: string | a != b ensures TextBefore(a, b) || TextBefore(b, a) {
      TextBeforeTotal(a, b);
    }
  }
}

=== FILE: schedule.dfy ===
/**
 * The `tuplas` column of a loan table holds the installment schedule as
 * the text of a Python list of tuples.  `_parse_tuplas_field` turns a cell
 * of that column into a list, falling back to an empty list whenever the
 * text is blank, "nan", not a literal, or a literal of another kind.
 *
 * Python's `ast.literal_eval` and `str()` of a non-string value are not
 * modelled: the caller supplies them as a `Runtime`.
 */
module Schedule {
  import opened Wrappers
  import opened Text

  /** The Python values a literal can evaluate to, as far as the schedule cares. */
  datatype PyValue =
    | PyNone
    | PyBool(b: bool)
    | PyInt(i: int)
    | PyFloat(x: real)            // a finite float
    | PyStr(s: string)
    | PyList(items: seq<PyValue>)
    | PyTuple(items: seq<PyValue>)
    | PyOpaque(tag: string)       // any other value: dicts, sets, complex numbers, non-finite floats

  /**
   * The foreign functions the decoding relies on: `ast.literal_eval`
   * (None where it raises) and `str()` of a value that is not a string.
   */
  datatype Runtime = Runtime(literalEval: string -> Option<PyValue>, render: PyValue -> string)

  /** A cell of the `tuplas` column as pandas hands it over. */
  datatype Cell =
    | NullCell                    // None
    | ListCell(items: seq<PyValue>)  // already a Python list
    | TextCell(text: string)      // anything else, as `str(val)` shows it; a NaN shows as "nan"

  /** The values that count as a sequence of installments. */
  predicate IsSequence(v: PyValue) {
    v.PyList? || v.PyTuple?
  }

  /** The fallback spelling: curly double quotes and single quotes become straight double quotes. */
  function NormalizeQuotes(s: string): (r: string)
    ensures |r| == |s|
    ensures '“' !in r && '”' !in r && '\'' !in r
    ensures forall k :: 0 <= k < |s| && s[k] != '“' && s[k] != '”' && s[k] != '\'' ==> r[k] == s[k]
  {
    ReplaceChar(ReplaceChar(ReplaceChar(s, '“', '"'), '”', '"'), '\'', '"')
  }

  /**
   * `_parse_tuplas_field`: the second evaluation, on the normalized text,
   * is tried only when the first one raises; a literal of any other kind
   * ends in the empty list without a second try.
   */
  function DecodeTuplas(cell: Cell, rt: Runtime): (r: seq<PyValue>)
    ensures cell.NullCell? ==> r == []
    ensures cell.ListCell? ==> r == cell.items
    ensures cell.TextCell? && (IsBlank(cell.text) || IsNanWord(Strip(cell.text))) ==> r == []
    ensures cell.TextCell? && r != [] ==>
      var s := Strip(cell.text);
      || (rt.literalEval(s).Some? && IsSequence(rt.literalEval(s).value) && r == rt.literalEval(s).value.items)
      || (rt.literalEval(s).None? && rt.literalEval(NormalizeQuotes(s)).Some? &&
          IsSequence(rt.literalEval(NormalizeQuotes(s)).value) && r == rt.literalEval(NormalizeQuotes(s)).value.items)
  {
    match cell
    case NullCell => []
    case ListCell(items) => items
    case TextCell(text) =>
      var s := Strip(text);
      if s == "" || IsNanWord(s) then []
      else match rt.literalEval(s)
        case Some(v) => if IsSequence(v) then v.items else []
        case None =>
          match rt.literalEval(NormalizeQuotes(s))
          case Some(v) => if IsSequence(v) then v.items else []
          case None => []
  }

  /** The text of a literal `literal_eval` reads as a list or tuple decodes to its items. */
  lemma SequenceLiteralDecodes(text: string, rt: Runtime)
    requires !IsBlank(text) && !IsNanWord(Strip(text))
    requires rt.literalEval(Strip(text)).Some? && IsSequence(rt.literalEval(Strip(text)).value)
    ensures DecodeTuplas(TextCell(text), rt) == rt.literalEval(Strip(text)).value.items
  {
  }

  /**
   * A text `literal_eval` rejects, but whose quotes once normalized spell a
   * list or tuple literal, decodes to that literal's items.
   */
  lemma NormalizedSequenceLiteralDecodes(text: string, rt: Runtime)
    requires !IsBlank(text) && !IsNanWord(Strip(text))
    requires rt.literalEval(Strip(text)).None?
    requires var v := rt.literalEval(NormalizeQuotes(Strip(text))); v.Some? && IsSequence(v.value)
    ensures DecodeTuplas(TextCell(text), rt) == rt.literalEval(NormalizeQuotes(Strip(text))).value.items
  {
  }

  /**
   * The fallback never overrides a first evaluation that succeeded: a text
   * that evaluates to something other than a list or tuple decodes to the
   * empty list, whatever its normalized spelling would give.
   */
  lemma NonSequenceLiteralDecodesEmpty(text: string, rt: Runtime)
    requires rt.literalEval(Strip(text)).Some? && !IsSequence(rt.literalEval(Strip(text)).value)
    ensures DecodeTuplas(TextCell(text), rt) == []
  {
  }
}

=== FILE: settings.dfy ===
/**
 * The application's configuration (class `Config`): per-table column
 * selections for display and reports, column types and column
 * standardization policies, each keyed by a table name or by the
 * wildcard "*" that applies to every table.  Loading and saving the
 * settings file are left out: the configuration is the in-memory value.
 */
module Settings {
  import opened Wrappers
  import opened Text

  const Wildcard: string := "*"

  /** A column's standardization: mode "free" or "fixed", the allowed values and the required flag. */
  datatype Standardization = Standardization(mode: string, values: seq<string>, required: bool)

  /** The policy a column has when nothing is configured for it. */
  const DefaultStandardization := Standardization("free", [], false)

  const DefaultType: string := "text"

  datatype Config = Config(
    visualCols: map<string, seq<string>>,
    reportCols: seq<string>,
    colTypes: map<string, map<string, string>>,
    colStd: map<string, map<string, Standardization>>)

  const EmptyConfig := Config(map[], [], map[], map[])

  predicate HasType(cfg: Config, table: string, col: string) {
    table in cfg.colTypes && col in cfg.colTypes[table]
  }

  predicate HasStd(cfg: Config, table: string, col: string) {
    table in cfg.colStd && col in cfg.colStd[table]
  }

  /** `get_col_type`: the table's own entry, else the wildcard's, else "text". */
  function ColType(cfg: Config, table: string, col: string): string {
    if HasType(cfg, table, col) then cfg.colTypes[table][col]
    else if HasType(cfg, Wildcard, col) then cfg.colTypes[Wildcard][col]
    else DefaultType
  }

  /** `get_col_standardization`: the table's own entry, else the wildcard's, else free. */
  function GetStd(cfg: Config, table: string, col: string): Standardization {
    if HasStd(cfg, table, col) then cfg.colStd[table][col]
    else if HasStd(cfg, Wildcard, col) then cfg.colStd[Wildcard][col]
    else DefaultStandardization
  }

  /** `get_visual`: the table's column selection, else the wildcard's, else every column. */
  function GetVisual(cfg: Config, table: string, allCols: seq<string>): seq<string> {
    if table in cfg.visualCols then cfg.visualCols[table]
    else if Wildcard in cfg.visualCols then cfg.visualCols[Wildcard]
    else allCols
  }

  /** `get_report`: the configured report columns unless that list is empty. */
  function GetReport(cfg: Config, allCols: seq<string>): seq<string> {
    if cfg.reportCols != [] then cfg.reportCols else allCols
  }

  function SetVisual(cfg: Config, table: string, cols: seq<string>): (r: Config)
    ensures GetVisual(r, table, []) == cols
    ensures r.colTypes == cfg.colTypes && r.colStd == cfg.colStd && r.reportCols == cfg.reportCols
    ensures forall t :: t != table ==>
      (t in r.visualCols <==> t in cfg.visualCols) && (t in cfg.visualCols ==> r.visualCols[t] == cfg.visualCols[t])
  {
    cfg.(visualCols := cfg.visualCols[table := cols])
  }

  function SetReport(cfg: Config, cols: seq<string>): (r: Config)
    ensures forall allCols :: GetReport(r, allCols) == (if cols != [] then cols else allCols)
    ensures r.visualCols == cfg.visualCols && r.colTypes == cfg.colTypes && r.colStd == cfg.colStd
  {
    cfg.(reportCols := cols)
  }

  /**
   * Lookups resolve in order: the table's own entry wins, and a table
   * without one resolves exactly as "*" does.
   */
  lemma LookupPrecedence(cfg: Config, table: string, col: string, allCols: seq<string>)
    ensures HasType(cfg, table, col) ==> ColType(cfg, table, col) == cfg.colTypes[table][col]
    ensures !HasType(cfg, table, col) ==> ColType(cfg, table, col) == ColType(cfg, Wildcard, col)
    ensures HasStd(cfg, table, col) ==> GetStd(cfg, table, col) == cfg.colStd[table][col]
    ensures !HasStd(cfg, table, col) ==> GetStd(cfg, table, col) == GetStd(cfg, Wildcard, col)
    ensures table in cfg.visualCols ==> GetVisual(cfg, table, allCols) == cfg.visualCols[table]
    ensures table !in cfg.visualCols ==> GetVisual(cfg, table, allCols) == GetVisual(cfg, Wildcard, allCols)
  {
  }

  /**
   * A display selection reads back as set, even an empty one, and setting
   * it for a named table does not change what any other table shows.
   */
  lemma VisualSelectionReadsBack(cfg: Config, table: string, cols: seq<string>, other: string, allCols: seq<string>)
    ensures GetVisual(SetVisual(cfg, table, cols), table, allCols) == cols
    ensures table != Wildcard && other != table ==>
      GetVisual(SetVisual(cfg, table, cols), other, allCols) == GetVisual(cfg, other, allCols)
  {
  }

  /** `get_report` after `set_report`: the selection, or every column when the selection is empty. */
  lemma ReportSelectionReadsBack(cfg: Config, cols: seq<string>, allCols: seq<string>)
    ensures cols != [] ==> GetReport(SetReport(cfg, cols), allCols) == cols
    ensures cols == [] ==> GetReport(SetReport(cfg, cols), allCols) == allCols
  {
  }

  /** `set_col_type`: records the type for exactly one (table, column) pair. */
  function SetColType(cfg: Config, table: string, col: string, typeName: string): (r: Config)
    ensures HasType(r, table, col) && r.colTypes[table][col] == typeName
    ensures forall t, c :: (t != table || c != col) ==>
      (HasType(r, t, c) <==> HasType(cfg, t, c)) &&
      (HasType(cfg, t, c) ==> r.colTypes[t][c] == cfg.colTypes[t][c])
    ensures r.colStd == cfg.colStd && r.visualCols == cfg.visualCols
  {
    var inner := if table in cfg.colTypes then cfg.colTypes[table] else map[];
    cfg.(colTypes := cfg.colTypes[table := inner[col := typeName]])
  }

  /** `set_col_standardization`: records the policy for exactly one (table, column) pair. */
  function SetStd(cfg: Config, table: string, col: string, std: Standardization): (r: Config)
    ensures HasStd(r, table, col) && r.colStd[table][col] == std
    ensures forall t, c :: (t != table || c != col) ==>
      (HasStd(r, t, c) <==> HasStd(cfg, t, c)) &&
      (HasStd(cfg, t, c) ==> r.colStd[t][c] == cfg.colStd[t][c])
    ensures r.colTypes == cfg.colTypes && r.visualCols == cfg.visualCols
  {
    var inner := if table in cfg.colStd then cfg.colStd[table] else map[];
    cfg.(colStd := cfg.colStd[table := inner[col := std]])
  }

  /** Reading back a type or a policy right after setting it gives what was set. */
  lemma SetThenGet(cfg: Config, table: string, col: string, typeName: string, std: Standardization)
    ensures ColType(SetColType(cfg, table, col, typeName), table, col) == typeName
    ensures GetStd(SetStd(cfg, table, col, std), table, col) == std
  {
  }

  /**
   * A setting stored under "*" reaches every table that has no entry of its
   * own for the column, and no table that has one.
   */
  lemma WildcardSettingPrecedence(cfg: Config, table: string, col: string, typeName: string, std: Standardization)
    requires table != Wildcard
    ensures ColType(SetColType(cfg, Wildcard, col, typeName), table, col) ==
      (if HasType(cfg, table, col) then cfg.colTypes[table][col] else typeName)
    ensures GetStd(SetStd(cfg, Wildcard, col, std), table, col) ==
      (if HasStd(cfg, table, col) then cfg.colStd[table][col] else std)
  {
  }

  /**
   * The allowed values typed into the standardization form: for mode
   * "fixed" the comma-separated pieces, stripped, blanks dropped; for any
   * other mode no values at all.
   */
  function AllowedValues(mode: string, text: string): (vs: seq<string>)
    ensures mode != "fixed" ==> vs == []
    ensures forall k :: 0 <= k < |vs| ==> vs[k] != [] && ',' !in vs[k] && Strip(vs[k]) == vs[k]
  {
    if mode == "fixed" then CleanPieces(Split(text, ',')) else []
  }

  function CleanPieces(pieces: seq<string>): (vs: seq<string>)
    requires forall k :: 0 <= k < |pieces| ==> ',' !in pieces[k]
    ensures forall k :: 0 <= k < |vs| ==> vs[k] != [] && ',' !in vs[k] && Strip(vs[k]) == vs[k]
  {
    if |pieces| == 0 then []
    else
      var v := Strip(pieces[0]);
      StripIdempotent(pieces[0]);
      StripSubsequence(pieces[0]);
      (if v != [] then [v] else []) + CleanPieces(pieces[1..])
  }

  lemma StripSubsequence(s: string)
    ensures forall c :: c in Strip(s) ==> c in s
  {
  }

  /** Values shown as `",".join(values)` and saved back unchanged are read back as the same list. */
  lemma {:induction false} AllowedValuesRoundTrip(values: seq<string>)
    requires |values| >= 1
    requires forall k :: 0 <= k < |values| ==> values[k] != [] && ',' !in values[k] && Strip(values[k]) == values[k]
    ensures AllowedValues("fixed", Join(values, ',')) == values
    ensures AllowedValues("fixed", "") == []
  {
    assert Split("", ',') == [""];
    SplitJoin(values, ',');
    CleanPiecesKeepsClean(values);
  }

  lemma {:induction false} CleanPiecesKeepsClean(values: seq<string>)
    requires forall k :: 0 <= k < |values| ==> values[k] != [] && ',' !in values[k] && Strip(values[k]) == values[k]
    ensures CleanPieces(values) == values
  {
    if |values| > 0 {
      CleanPiecesKeepsClean(values[1..]);
      assert values == [values[0]] + values[1..];
    }
  }

  /** Tables that hold `col` and carry no policy of their own for it. */
  function PropagationTargets(cfg: Config, col: string, schema: map<string, seq<string>>): set<string> {
    set t | t in schema && col in schema[t] && !HasStd(cfg, t, col)
  }

  /** The "*" propagation step of `save_padronizacao` for one column. */
  function PropagateWildcard(cfg: Config, col: string, std: Standardization, schema: map<string, seq<string>>): (r: Config)
    ensures forall t :: t in schema && col in schema[t] && !HasStd(cfg, t, col) ==>
      HasStd(r, t, col) && r.colStd[t][col] == std
    ensures forall t, c :: HasStd(cfg, t, c) ==> HasStd(r, t, c) && r.colStd[t][c] == cfg.colStd[t][c]
    ensures forall t, c :: HasStd(r, t, c) && !HasStd(cfg, t, c) ==>
      c == col && t in schema && col in schema[t] && r.colStd[t][c] == std
    ensures r.colTypes == cfg.colTypes && r.visualCols == cfg.visualCols
  {
    var targets := PropagationTargets(cfg, col, schema);
    var colStd := map t | t in cfg.colStd.Keys + targets ::
      if t in targets then (if t in cfg.colStd then cfg.colStd[t] else map[])[col := std]
      else cfg.colStd[t];
    cfg.(colStd := colStd)
  }

  /**
   * `save_padronizacao` for one column: store the policy under the chosen
   * key and, when that key is "*", copy it to every table that has the
   * column but no policy of its own for it.
   */
  function SaveStandardization(cfg: Config, tab: string, col: string, std: Standardization,
                               schema: map<string, seq<string>>): (r: Config)
    ensures HasStd(r, tab, col) && r.colStd[tab][col] == std
    ensures forall t, c :: HasStd(cfg, t, c) ==>
      HasStd(r, t, c) && ((t != tab || c != col) ==> r.colStd[t][c] == cfg.colStd[t][c])
    ensures forall t, c :: HasStd(r, t, c) && !HasStd(cfg, t, c) ==>
      c == col && (t == tab || (tab == Wildcard && t in schema && col in schema[t]))
    ensures r.colTypes == cfg.colTypes && r.visualCols == cfg.visualCols && r.reportCols == cfg.reportCols
  {
    var saved := SetStd(cfg, tab, col, std);
    if tab == Wildcard then PropagateWildcard(saved, col, std, schema) else saved
  }

  /**
   * Saving under "*" never clobbers an override: a table with its own
   * policy keeps it, every other table resolves to the new policy, and
   * every table holding the column now carries an explicit entry.
   */
  lemma WildcardSaveResolution(cfg: Config, col: string, std: Standardization, schema: map<string, seq<string>>)
    ensures var r := SaveStandardization(cfg, Wildcard, col, std, schema);
      && (forall t :: t != Wildcard ==>
            GetStd(r, t, col) == (if HasStd(cfg, t, col) then cfg.colStd[t][col] else std))
      && (forall t, c :: HasStd(cfg, t, c) && t != Wildcard ==> r.colStd[t][c] == cfg.colStd[t][c])
      && (forall t :: t in schema && col in schema[t] ==> HasStd(r, t, col))
  {
  }

  /** Saving under a table name touches that table's entry only. */
  lemma TableSaveIsLocal(cfg: Config, tab: string, col: string, std: Standardization, schema: map<string, seq<string>>)
    requires tab != Wildcard
    ensures var r := SaveStandardization(cfg, tab, col, std, schema);
      && GetStd(r, tab, col) == std
      && (forall t, c :: (t != tab || c != col) ==> GetStd(r, t, c) == GetStd(cfg, t, c))
  {
  }

  /** Saving a policy for one column stores it under the chosen key and leaves every other column alone. */
  lemma SaveStandardizationFrame(cfg: Config, tab: string, col: string, std: Standardization,
                                 schema: map<string, seq<string>>)
    ensures var r := SaveStandardization(cfg, tab, col, std, schema);
      && HasStd(r, tab, col) && r.colStd[tab][col] == std
      && (forall t, c :: c != col ==>
            (HasStd(r, t, c) <==> HasStd(cfg, t, c)) && (HasStd(cfg, t, c) ==> r.colStd[t][c] == cfg.colStd[t][c]))
  {
  }

  /** One row of the standardization form: a column with its mode, values text and required flag. */
  datatype PolicyRow = PolicyRow(col: string, mode: string, valuesText: string, required: bool)

  function RowPolicy(row: PolicyRow): Standardization {
    Standardization(row.mode, AllowedValues(row.mode, row.valuesText), row.required)
  }

  /** `save_padronizacao` over every row of the form, in order. */
  function SaveStandardizationForm(cfg: Config, tab: string, rows: seq<PolicyRow>,
                                   schema: map<string, seq<string>>): (r: Config)
    ensures forall k :: 0 <= k < |rows| ==> HasStd(r, tab, rows[k].col)
    ensures forall t, c :: HasStd(cfg, t, c) ==> HasStd(r, t, c)
    ensures r.colTypes == cfg.colTypes && r.visualCols == cfg.visualCols && r.reportCols == cfg.reportCols
    decreases |rows|
  {
    if |rows| == 0 then cfg
    else
      var init, last := rows[..|rows| - 1], rows[|rows| - 1];
      var inner := SaveStandardizationForm(cfg, tab, init, schema);
      var r := SaveStandardization(inner, tab, last.col, RowPolicy(last), schema);
      assert forall k :: 0 <= k < |rows| ==> HasStd(r, tab, rows[k].col) by {
        forall k | 0 <= k < |rows| ensures HasStd(r, tab, rows[k].col) {
          if k < |rows| - 1 { assert init[k] == rows[k]; assert HasStd(inner, tab, rows[k].col); }
        }
      }
      r
  }

  predicate NamesColumn(rows: seq<PolicyRow>, c: string) {
    exists k :: 0 <= k < |rows| && rows[k].col == c
  }

  /** Saving the form leaves the policies of columns it does not list exactly as they were. */
  lemma {:induction false} SaveFormKeepsUnlisted(cfg: Config, tab: string, rows: seq<PolicyRow>,
                                                 schema: map<string, seq<string>>, t: string, c: string)
    requires !NamesColumn(rows, c)
    ensures var r := SaveStandardizationForm(cfg, tab, rows, schema);
      (HasStd(r, t, c) <==> HasStd(cfg, t, c)) && (HasStd(cfg, t, c) ==> r.colStd[t][c] == cfg.colStd[t][c])
    decreases |rows|
  {
    if |rows| > 0 {
      var init := rows[..|rows| - 1];
      var last := rows[|rows| - 1];
      assert c != last.col;
      assert !NamesColumn(init, c);
      SaveFormKeepsUnlisted(cfg, tab, init, schema, t, c);
      SaveStandardizationFrame(SaveStandardizationForm(cfg, tab, init, schema), tab, last.col, RowPolicy(last), schema);
    }
  }

  /** Saving the form (which lists each column once) gives every listed column the policy typed for it. */
  lemma {:induction false} SaveFormSetsListed(cfg: Config, tab: string, rows: seq<PolicyRow>,
                                              schema: map<string, seq<string>>, k: nat)
    requires forall i, j :: 0 <= i < j < |rows| ==> rows[i].col != rows[j].col
    requires k < |rows|
    ensures GetStd(SaveStandardizationForm(cfg, tab, rows, schema), tab, rows[k].col) == RowPolicy(rows[k])
    decreases |rows|
  {
    var init := rows[..|rows| - 1];
    var last := rows[|rows| - 1];
    var before := SaveStandardizationForm(cfg, tab, init, schema);
    SaveStandardizationFrame(before, tab, last.col, RowPolicy(last), schema);
    if k < |rows| - 1 {
      assert init[k] == rows[k];
      SaveFormSetsListed(cfg, tab, init, schema, k);
      var c := rows[k].col;
      assert c != last.col;
    }
  }

  /** `drop_table`'s configuration part: forget every setting scoped to the table. */
  function DropTablePolicies(cfg: Config, table: string): (r: Config)
    ensures table !in r.visualCols && table !in r.colTypes && table !in r.colStd
    ensures forall t :: t != table ==>
      (t in r.colStd <==> t in cfg.colStd) && (t in cfg.colStd ==> r.colStd[t] == cfg.colStd[t])
    ensures forall t :: t != table ==>
      (t in r.colTypes <==> t in cfg.colTypes) && (t in cfg.colTypes ==> r.colTypes[t] == cfg.colTypes[t])
    ensures forall t :: t != table ==>
      (t in r.visualCols <==> t in cfg.visualCols) && (t in cfg.visualCols ==> r.visualCols[t] == cfg.visualCols[t])
    ensures r.reportCols == cfg.reportCols
  {
    Config(cfg.visualCols - {table}, cfg.reportCols, cfg.colTypes - {table}, cfg.colStd - {table})
  }

  /** After a drop, the table resolves every column the way an unconfigured table does. */
  lemma DroppedTableFallsBack(cfg: Config, table: string, col: string)
    requires table != Wildcard
    ensures var r := DropTablePolicies(cfg, table);
      && ColType(r, table, col) == ColType(cfg, Wildcard, col)
      && GetStd(r, table, col) == GetStd(cfg, Wildcard, col)
      && GetVisual(r, table, []) == GetVisual(cfg, Wildcard, [])
  {
  }
}

=== FILE: store.dfy ===
/**
 * The audited record store: tables of rows keyed by their `id` column,
 * and the audit log every mutation appends to (`insert_row`,
 * `update_cell`, `delete_row`, `drop_table`).  The SQLite database is
 * represented by its contents; a NULL cell is a column missing from the
 * row's map.  Each audit entry corresponds to one JSON file that
 * `write_log_file` writes; timestamps and the user name are not modelled.
 */
module RecordStore {
  import opened Wrappers
  import opened Settings
  import opened Text
  import opened Numerals

  /** A row: column name to stored text; a column absent from the map holds NULL. */
  type Row = map<string, string>

  const IdColumn: string := "id"

  /** A table: its columns in schema order and its rows keyed by their id. */
  datatype Table = Table(columns: seq<string>, rows: map<string, Row>)

  datatype AuditEntry =
    | InsertEntry(table: string, rowId: string, details: Row)
    | UpdateEntry(table: string, rowId: string, column: string, oldValue: Option<string>, newValue: string)
    | DeleteEntry(table: string, rowId: string, oldRow: Row)
    | ImportInsertEntry(table: string, rowId: string, details: Row)
    | ImportUpdateEntry(table: string, rowId: string, details: Row)
    | DropTableEntry(table: string)

  datatype Store = Store(tables: map<string, Table>, audit: seq<AuditEntry>)

  /** The failures the store operations raise. */
  datatype StoreError =
    | NoSuchTable(table: string)       // sqlite3.OperationalError: no such table
    | NoSuchColumn                     // sqlite3.OperationalError: no such column
    | DuplicateId(id: string)          // the ValueError insert_row raises itself
    | PrimaryKeyConflict(id: string)   // sqlite3.IntegrityError on the id primary key
    | IntegerOverflow                  // OverflowError binding an int outside SQLite's 64 bits

  /** What an operation returns: the store afterwards and its result or failure. */
  datatype Effect<T> = Effect(store: Store, outcome: Result<T, StoreError>)

  /** Every table has an `id` column, and every row sits under its own id and only uses the table's columns. */
  predicate WellFormedTable(t: Table) {
    && IdColumn in t.columns
    && forall k :: k in t.rows ==>
         && IdColumn in t.rows[k]
         && t.rows[k][IdColumn] == k
         && (forall c :: c in t.rows[k] ==> c in t.columns)
  }

  predicate WellFormed(s: Store) {
    forall n :: n in s.tables ==> WellFormedTable(s.tables[n])
  }

  /** The table name to column list view the configuration screens use. */
  function Schema(s: Store): map<string, seq<string>> {
    map n | n in s.tables :: s.tables[n].columns
  }

  /** `get_table_columns`: the columns, or none for an unknown table. */
  function ColumnsOf(s: Store, table: string): seq<string> {
    if table in s.tables then s.tables[table].columns else []
  }

  /** `table_has_id`: false, not an error, when the table does not exist. */
  predicate HasId(s: Store, table: string, id: string) {
    table in s.tables && id in s.tables[table].rows
  }

  predicate AppendedOne(before: Store, after: Store, e: AuditEntry) {
    after.audit == before.audit + [e]
  }

  /** The other tables are left as they were. */
  predicate OthersUnchanged(before: Store, after: Store, table: string) {
    after.tables - {table} == before.tables - {table}
  }

  function WithRows(s: Store, table: string, rows: map<string, Row>): Store
    requires table in s.tables
  {
    s.(tables := s.tables[table := s.tables[table].(rows := rows)])
  }

  /**
   * `insert_row`: refuse a non-empty id that is already present, let the
   * database refuse unknown columns and a second empty id, otherwise add
   * the row and log one INSERT entry carrying the values.
   */
  function InsertRow(s: Store, table: string, values: Row): (r: Effect<string>)
    requires IdColumn in values
    ensures r.outcome.Err? ==> r.store == s
    ensures r.outcome.Ok? <==>
      && table in s.tables
      && values[IdColumn] !in s.tables[table].rows
      && (forall c :: c in values ==> c in s.tables[table].columns)
    ensures r.outcome == Err(DuplicateId(values[IdColumn])) <==>
      values[IdColumn] != "" && HasId(s, table, values[IdColumn])
    ensures r.outcome.Ok? ==>
      && r.outcome.value == values[IdColumn]
      && table in r.store.tables
      && r.store.tables[table].columns == s.tables[table].columns
      && r.store.tables[table].rows == s.tables[table].rows[values[IdColumn] := values]
      && OthersUnchanged(s, r.store, table)
      && AppendedOne(s, r.store, InsertEntry(table, values[IdColumn], values))
  {
    var id := values[IdColumn];
    if table !in s.tables then Effect(s, Err(NoSuchTable(table)))
    else
      var t := s.tables[table];
      if id != "" && id in t.rows then Effect(s, Err(DuplicateId(id)))
      else if exists c :: c in values && c !in t.columns then Effect(s, Err(NoSuchColumn))
      else if id in t.rows then Effect(s, Err(PrimaryKeyConflict(id)))
      else
        var s' := WithRows(s, table, t.rows[id := values]);
        Effect(s'.(audit := s.audit + [InsertEntry(table, id, values)]), Ok(id))
  }

  /** The pre-mutation value of a cell, None for a missing row or a NULL cell. */
  function CellValue(t: Table, rowId: string, col: string): Option<string> {
    if rowId in t.rows && col in t.rows[rowId] then Some(t.rows[rowId][col]) else None
  }

  /**
   * `update_cell`: read the old value, write the one cell, and log one
   * UPDATE entry with the old and new values — also when no row has that
   * id, in which case nothing is written and the old value is None.
   * Writing the `id` column moves the row to its new key, unless that key
   * is taken.
   */
  function UpdateCell(s: Store, table: string, col: string, val: string, rowId: string): (r: Effect<()>)
    ensures r.outcome.Err? ==> r.store == s
    ensures r.outcome.Ok? <==>
      && table in s.tables
      && col in s.tables[table].columns
      && !(col == IdColumn && rowId in s.tables[table].rows && val != rowId && val in s.tables[table].rows)
    ensures r.outcome.Ok? ==>
      && OthersUnchanged(s, r.store, table)
      && table in r.store.tables
      && r.store.tables[table].columns == s.tables[table].columns
      && AppendedOne(s, r.store, UpdateEntry(table, rowId, col, CellValue(s.tables[table], rowId, col), val))
    ensures r.outcome.Ok? && rowId !in s.tables[table].rows ==> r.store.tables[table] == s.tables[table]
    ensures r.outcome.Ok? && rowId in s.tables[table].rows && col != IdColumn ==>
      r.store.tables[table].rows == s.tables[table].rows[rowId := s.tables[table].rows[rowId][col := val]]
    ensures r.outcome.Ok? && rowId in s.tables[table].rows && col == IdColumn ==>
      r.store.tables[table].rows == (s.tables[table].rows - {rowId})[val := s.tables[table].rows[rowId][col := val]]
  {
    if table !in s.tables then Effect(s, Err(NoSuchTable(table)))
    else
      var t := s.tables[table];
      if col !in t.columns then Effect(s, Err(NoSuchColumn))
      else
        var entry := UpdateEntry(table, rowId, col, CellValue(t, rowId, col), val);
        if rowId !in t.rows then Effect(s.(audit := s.audit + [entry]), Ok(()))
        else if col == IdColumn && val != rowId && val in t.rows then Effect(s, Err(PrimaryKeyConflict(val)))
        else
          var row := t.rows[rowId][col := val];
          var rows := if col == IdColumn then (t.rows - {rowId})[val := row] else t.rows[rowId := row];
          Effect(WithRows(s, table, rows).(audit := s.audit + [entry]), Ok(()))
  }

  /**
   * `delete_row` matching the id exactly, as its callers intend: when the
   * row exists, log one DELETE entry holding the whole old row and remove
   * it; when it does not, log nothing and change nothing.  The code as
   * written is `DeleteRowAsWritten` below.
   */
  function DeleteRow(s: Store, table: string, rowId: string): (r: Effect<()>)
    ensures r.outcome.Err? <==> table !in s.tables
    ensures r.outcome.Err? ==> r.store == s
    ensures r.outcome.Ok? ==>
      && OthersUnchanged(s, r.store, table)
      && table in r.store.tables
      && r.store.tables[table].columns == s.tables[table].columns
      && r.store.tables[table].rows == s.tables[table].rows - {rowId}
      && (rowId in s.tables[table].rows ==>
            AppendedOne(s, r.store, DeleteEntry(table, rowId, s.tables[table].rows[rowId])))
      && (rowId !in s.tables[table].rows ==> r.store == s)
  {
    if table !in s.tables then Effect(s, Err(NoSuchTable(table)))
    else
      var t := s.tables[table];
      if rowId in t.rows then
        Effect(WithRows(s, table, t.rows - {rowId}).(audit := s.audit + [DeleteEntry(table, rowId, t.rows[rowId])]), Ok(()))
      else
        assert t.rows - {rowId} == t.rows;
        Effect(s, Ok(()))
  }

  const SqliteIntMin: int := -0x8000_0000_0000_0000
  const SqliteIntMax: int := 0x7FFF_FFFF_FFFF_FFFF

  /**
   * The id text `delete_row`'s queries match.  It first tries `int(rowid)`;
   * an integer bound against the TEXT `id` column compares as its decimal
   * text, so a numeric-looking id is matched in its canonical spelling.
   */
  function DeleteKey(rowId: string): (r: Result<string, StoreError>)
    ensures !IsIntText(rowId) ==> r == Ok(rowId)
    ensures IsIntText(rowId) && r.Ok? ==> IsIntText(r.value) && IntValue(r.value) == IntValue(rowId)
    ensures IsIntText(rowId) && r.Ok? ==> r.value == IntToText(IntValue(rowId))
    ensures r.Err? <==> IsIntText(rowId) && !(SqliteIntMin <= IntValue(rowId) <= SqliteIntMax)
  {
    if !IsIntText(rowId) then Ok(rowId)
    else
      var n := IntValue(rowId);
      IntToTextRoundTrip(n);
      if SqliteIntMin <= n <= SqliteIntMax then Ok(IntToText(n)) else Err(IntegerOverflow)
  }

  /**
   * `delete_row` as written: the row removed and logged is the one whose
   * id equals `DeleteKey(rowId)`, which for a numeric-looking id need not
   * be `rowId` itself.
   */
  function DeleteRowAsWritten(s: Store, table: string, rowId: string): (r: Effect<()>)
    ensures r.outcome.Err? ==> r.store == s
    ensures r.outcome.Err? <==> DeleteKey(rowId).Err? || table !in s.tables
    ensures r.outcome.Ok? ==>
      var key := DeleteKey(rowId).value;
      && table in s.tables && table in r.store.tables
      && r.store.tables[table].rows == s.tables[table].rows - {key}
      && OthersUnchanged(s, r.store, table)
      && (key in s.tables[table].rows ==>
            AppendedOne(s, r.store, DeleteEntry(table, key, s.tables[table].rows[key])))
      && (key !in s.tables[table].rows ==> r.store == s)
  {
    match DeleteKey(rowId)
    case Err(e) => Effect(s, Err(e))
    case Ok(key) => DeleteRow(s, table, key)
  }

  /** Ids that are not integer literals are deleted exactly as asked. */
  lemma DeleteAsWrittenExactOnNonNumericIds(s: Store, table: string, rowId: string)
    requires !IsIntText(rowId)
    ensures DeleteRowAsWritten(s, table, rowId) == DeleteRow(s, table, rowId)
  {
  }

  /**
   * Asking to delete "007" in a table holding "007" and "7" removes "7",
   * logs the removal of "7", and leaves "007" in place.
   */
  lemma PaddedIdDeletesAnotherRow()
    ensures var padded := map[IdColumn := "007"];
      var plain := map[IdColumn := "7"];
      var s := Store(map["t" := Table([IdColumn], map["007" := padded, "7" := plain])], []);
      var r := DeleteRowAsWritten(s, "t", "007");
      && r.outcome.Ok?
      && r.store.tables["t"].rows == map["007" := padded]
      && r.store.audit == [DeleteEntry("t", "7", plain)]
  {
    PaddedKey();
    assert map["007" := map[IdColumn := "007"], "7" := map[IdColumn := "7"]] - {"7"} == map["007" := map[IdColumn := "007"]];
  }

  /** `str(int("007"))` is "7". */
  lemma PaddedKey()
    ensures DeleteKey("007") == Ok("7")
  {
    var rowId := "007";
    StripUnpadded(rowId);
    assert DigitPart(rowId);
    assert DigitsValue(rowId) == 7 by {
      assert rowId[..2] == "00" && rowId[..2][..1] == "0" && rowId[..2][..1][..0] == "";
    }
    assert IntValue(rowId) == 7;
    assert IntToText(7) == "7";
  }

  /**
   * `drop_table`: drop the table if it exists, forget its display, type and
   * standardization settings, and log one DROP_TABLE entry in every case.
   */
  function DropTable(s: Store, cfg: Config, table: string): (r: (Store, Config))
    ensures table !in r.0.tables
    ensures OthersUnchanged(s, r.0, table)
    ensures AppendedOne(s, r.0, DropTableEntry(table))
    ensures r.1 == DropTablePolicies(cfg, table)
  {
    (Store(s.tables - {table}, s.audit + [DropTableEntry(table)]), DropTablePolicies(cfg, table))
  }

  /** Inserting, deleting and dropping keep the tables well formed. */
  lemma InsertDeleteDropPreserveWellFormed(s: Store, cfg: Config, table: string, values: Row, rowId: string)
    requires WellFormed(s)
    requires IdColumn in values
    ensures WellFormed(InsertRow(s, table, values).store)
    ensures WellFormed(DeleteRow(s, table, rowId).store)
    ensures WellFormed(DropTable(s, cfg, table).0)
  {
    InsertPreservesWellFormed(s, table, values);
    DeletePreservesWellFormed(s, table, rowId);
    DropPreservesWellFormed(s, cfg, table);
  }

  lemma InsertPreservesWellFormed(s: Store, table: string, values: Row)
    requires WellFormed(s) && IdColumn in values
    ensures WellFormed(InsertRow(s, table, values).store)
  {
  }

  lemma DeletePreservesWellFormed(s: Store, table: string, rowId: string)
    requires WellFormed(s)
    ensures WellFormed(DeleteRow(s, table, rowId).store)
  {
  }

  lemma DropPreservesWellFormed(s: Store, cfg: Config, table: string)
    requires WellFormed(s)
    ensures WellFormed(DropTable(s, cfg, table).0)
  {
  }

  /**
   * `table_has_id` and `get_table_columns` follow the mutations: an
   * inserted id is found, a deleted one is not, a dropped table has no
   * ids and no columns, and no row operation changes a table's columns.
   */
  lemma LookupsTrackMutations(s: Store, cfg: Config, table: string, values: Row, rowId: string)
    requires IdColumn in values
    ensures var ins := InsertRow(s, table, values).store;
      InsertRow(s, table, values).outcome.Ok? ==>
        && HasId(ins, table, values[IdColumn])
        && ColumnsOf(ins, table) == ColumnsOf(s, table)
        && forall id :: id != values[IdColumn] ==> (HasId(ins, table, id) <==> HasId(s, table, id))
    ensures var del := DeleteRow(s, table, rowId).store;
      DeleteRow(s, table, rowId).outcome.Ok? ==>
        && !HasId(del, table, rowId)
        && ColumnsOf(del, table) == ColumnsOf(s, table)
        && forall id :: id != rowId ==> (HasId(del, table, id) <==> HasId(s, table, id))
    ensures !HasId(DropTable(s, cfg, table).0, table, rowId) && ColumnsOf(DropTable(s, cfg, table).0, table) == []
  {
  }

  /** Updating a cell, the id cell included, keeps the tables well formed. */
  lemma UpdatePreservesWellFormed(s: Store, table: string, col: string, val: string, rowId: string)
    requires WellFormed(s)
    ensures WellFormed(UpdateCell(s, table, col, val, rowId).store)
  {
    var u := UpdateCell(s, table, col, val, rowId);
    if u.outcome.Ok? && rowId in s.tables[table].rows {
      var t := s.tables[table];
      var row := t.rows[rowId][col := val];
      var rows := u.store.tables[table].rows;
      forall k | k in rows
        ensures IdColumn in rows[k] && rows[k][IdColumn] == k && (forall c :: c in rows[k] ==> c in t.columns)
      {
        if col == IdColumn {
          if k == val { assert rows[k] == row; } else { assert rows[k] == t.rows[k]; }
        } else {
          if k == rowId { assert rows[k] == row; } else { assert rows[k] == t.rows[k]; }
        }
      }
      assert WellFormedTable(u.store.tables[table]);
    }
  }

  /** Deleting the row just inserted gives back the tables as they were; the log keeps both entries. */
  lemma InsertThenDeleteRestores(s: Store, table: string, values: Row)
    requires IdColumn in values
    requires InsertRow(s, table, values).outcome.Ok?
    ensures var ins := InsertRow(s, table, values);
      var del := DeleteRow(ins.store, table, values[IdColumn]);
      && del.outcome.Ok?
      && del.store.tables == s.tables
      && del.store.audit == s.audit + [InsertEntry(table, values[IdColumn], values),
                                       DeleteEntry(table, values[IdColumn], values)]
  {
    var id := values[IdColumn];
    var ins := InsertRow(s, table, values);
    var del := DeleteRow(ins.store, table, id);
    assert s.tables[table].rows[id := values] - {id} == s.tables[table].rows;
    assert del.store.tables[table] == s.tables[table];
  }

  /** Writing back the old value of a non-NULL cell undoes an update; the log keeps both entries. */
  lemma UpdateThenRevertRestores(s: Store, table: string, col: string, val: string, rowId: string)
    requires col != IdColumn
    requires table in s.tables && rowId in s.tables[table].rows && col in s.tables[table].rows[rowId]
    requires UpdateCell(s, table, col, val, rowId).outcome.Ok?
    ensures var prior := s.tables[table].rows[rowId][col];
      var first := UpdateCell(s, table, col, val, rowId);
      var second := UpdateCell(first.store, table, col, prior, rowId);
      && second.outcome.Ok?
      && second.store.tables == s.tables
      && second.store.audit == s.audit + [UpdateEntry(table, rowId, col, Some(prior), val),
                                          UpdateEntry(table, rowId, col, Some(val), prior)]
  {
    var prior := s.tables[table].rows[rowId][col];
    var first := UpdateCell(s, table, col, val, rowId);
    var second := UpdateCell(first.store, table, col, prior, rowId);
    var t := s.tables[table];
    assert t.rows[rowId][col := val][col := prior] == t.rows[rowId];
    assert t.rows[rowId := t.rows[rowId][col := val]][rowId := t.rows[rowId]] == t.rows;
    assert second.store.tables[table] == t;
  }
}

=== FILE: text.dfy ===
/**
 * The handful of Python `str` operations the application relies on:
 * `isspace`/`strip`, `split` on one separator, `replace` of single
 * characters and the case-insensitive comparison with "nan".
 */
module Text {

  /** Python's `str.isspace`: the Unicode White_Space characters CPython strips. */
  predicate IsSpace(c: char) {
    || c == ' ' || c == '\t' || c == '\n' || c == '\r'
    || c == '\U{000B}' || c == '\U{000C}'
    || c == '\U{001C}' || c == '\U{001D}' || c == '\U{001E}' || c == '\U{001F}'
    || c == '\U{0085}' || c == '\U{00A0}' || c == '\U{1680}'
    || ('\U{2000}' <= c <= '\U{200A}')
    || c == '\U{2028}' || c == '\U{2029}' || c == '\U{202F}' || c == '\U{205F}'
    || c == '\U{3000}'
  }

  predicate IsDigit(c: char) {
    '0' <= c <= '9'
  }

  function DigitValue(c: char): (d: nat)
    requires IsDigit(c)
    ensures d < 10
  {
    (c as int - '0' as int) as nat
  }

  lemma DigitIsNotSpace(c: char)
    requires IsDigit(c)
    ensures !IsSpace(c)
  {
  }

  /** The ASCII digit of a value below ten. */
  function DigitChar(n: int): (c: char)
    requires 0 <= n < 10
    ensures IsDigit(c) && DigitValue(c) == n
  {
    ('0' as int + n) as char
  }

  /** Number of whitespace characters at the front of `s`. */
  function LeadingSpaces(s: string): (n: nat)
    ensures n <= |s|
    ensures forall k :: 0 <= k < n ==> IsSpace(s[k])
    ensures n < |s| ==> !IsSpace(s[n])
  {
    if |s| == 0 || !IsSpace(s[0]) then 0 else 1 + LeadingSpaces(s[1..])
  }

  /** Number of whitespace characters at the back of `s`. */
  function TrailingSpaces(s: string): (n: nat)
    ensures n <= |s|
    ensures forall k :: |s| - n <= k < |s| ==> IsSpace(s[k])
    ensures n < |s| ==> !IsSpace(s[|s| - n - 1])
  {
    if |s| == 0 || !IsSpace(s[|s| - 1]) then 0 else 1 + TrailingSpaces(s[..|s| - 1])
  }

  /** Python's `s.strip()`. */
  function Strip(s: string): (r: string)
    ensures |r| <= |s|
    ensures r == [] || (!IsSpace(r[0]) && !IsSpace(r[|r| - 1]))
    ensures (forall k :: 0 <= k < |s| ==> IsSpace(s[k])) <==> r == []
    ensures LeadingSpaces(s) + |r| <= |s| && r == s[LeadingSpaces(s)..LeadingSpaces(s) + |r|]
    ensures forall k :: LeadingSpaces(s) + |r| <= k < |s| ==> IsSpace(s[k])
  {
    var lead := LeadingSpaces(s);
    if lead == |s| then []
    else
      var trail := TrailingSpaces(s);
      assert !IsSpace(s[lead]);
      s[lead..|s| - trail]
  }

  /** `s.strip() == ""`: the text is empty or only whitespace. */
  predicate IsBlank(s: string) {
    Strip(s) == []
  }

  lemma BlankIffAllSpace(s: string)
    ensures IsBlank(s) <==> forall k :: 0 <= k < |s| ==> IsSpace(s[k])
  {
  }

  /** A text with no whitespace at either end is its own strip. */
  lemma StripUnpadded(s: string)
    requires s != [] && !IsSpace(s[0]) && !IsSpace(s[|s| - 1])
    ensures Strip(s) == s
  {
    assert LeadingSpaces(s) == 0;
    assert TrailingSpaces(s) == 0;
  }

  lemma StripIdempotent(s: string)
    ensures Strip(Strip(s)) == Strip(s)
  {
    var r := Strip(s);
    if r != [] {
      assert LeadingSpaces(r) == 0;
      assert TrailingSpaces(r) == 0;
    }
  }

  /** Stripping keeps every character that is not whitespace. */
  lemma StripKeepsNonSpace(s: string, c: char)
    requires c in s && !IsSpace(c)
    ensures c in Strip(s)
  {
    var k :| 0 <= k < |s| && s[k] == c;
    var r := Strip(s);
    var lead := LeadingSpaces(s);
    assert !IsSpace(s[k]);
    assert lead <= k < lead + |r|;
    assert r[k - lead] == c;
  }

  /** `s.lower() == "nan"`; only 'N'/'n' and 'A'/'a' lower-case to 'n' and 'a'. */
  predicate IsNanWord(s: string) {
    && |s| == 3
    && (s[0] == 'n' || s[0] == 'N')
    && (s[1] == 'a' || s[1] == 'A')
    && (s[2] == 'n' || s[2] == 'N')
  }

  /** Position of the first occurrence of `c` in `s`. */
  function IndexOf(s: string, c: char): (i: nat)
    requires c in s
    ensures i < |s| && s[i] == c
    ensures c !in s[..i]
  {
    if s[0] == c then 0 else 1 + IndexOf(s[1..], c)
  }

  /** Python's `s.split(sep)` for a one-character separator. */
  function Split(s: string, sep: char): (parts: seq<string>)
    ensures |parts| >= 1
    ensures forall k :: 0 <= k < |parts| ==> sep !in parts[k]
    decreases |s|
  {
    if sep !in s then [s]
    else
      var i := IndexOf(s, sep);
      [s[..i]] + Split(s[i + 1..], sep)
  }

  /** `sep.join(parts)`, the inverse of `Split`. */
  function Join(parts: seq<string>, sep: char): string
    requires |parts| >= 1
  {
    if |parts| == 1 then parts[0] else parts[0] + [sep] + Join(parts[1..], sep)
  }

  lemma {:induction false} JoinSplit(s: string, sep: char)
    ensures Join(Split(s, sep), sep) == s
    decreases |s|
  {
    if sep in s {
      var i := IndexOf(s, sep);
      var tail := Split(s[i + 1..], sep);
      assert Split(s, sep) == [s[..i]] + tail by { SplitAtFirst(s, sep); }
      assert Join([s[..i]] + tail, sep) == s[..i] + [sep] + Join(tail, sep) by {
        assert ([s[..i]] + tail)[1..] == tail;
      }
      JoinSplit(s[i + 1..], sep);
      assert s == s[..i] + [sep] + s[i + 1..];
    }
  }

  lemma {:induction false} SplitJoin(parts: seq<string>, sep: char)
    requires |parts| >= 1
    requires forall k :: 0 <= k < |parts| ==> sep !in parts[k]
    ensures Split(Join(parts, sep), sep) == parts
    decreases |parts|
  {
    if |parts| > 1 {
      var head, tail := parts[0], parts[1..];
      SplitAfterHead(head, sep, Join(tail, sep));
      assert Split(Join(tail, sep), sep) == tail by {
        forall k | 0 <= k < |tail| ensures sep !in tail[k] { assert tail[k] == parts[k + 1]; }
        SplitJoin(tail, sep);
      }
      assert parts == [head] + tail;
    }
  }

  /** A separator-free head followed by the separator splits off as the first part. */
  lemma SplitAfterHead(head: string, sep: char, rest: string)
    requires sep !in head
    ensures Split(head + [sep] + rest, sep) == [head] + Split(rest, sep)
  {
    var s := head + [sep] + rest;
    assert sep in s by { assert s[|head|] == sep; }
    IndexOfAfterPrefix(head, sep, rest);
    SplitAtFirst(s, sep);
    assert s[..|head|] == head;
    assert s[|head| + 1..] == rest;
  }

  /** A string holding the separator splits at its first occurrence. */
  lemma SplitAtFirst(s: string, sep: char)
    requires sep in s
    ensures IndexOf(s, sep) < |s|
    ensures Split(s, sep) == [s[..IndexOf(s, sep)]] + Split(s[IndexOf(s, sep) + 1..], sep)
  {
  }

  lemma {:induction false} IndexOfAfterPrefix(a: string, sep: char, b: string)
    requires sep !in a
    ensures IndexOf(a + [sep] + b, sep) == |a|
  {
    if |a| > 0 {
      assert (a + [sep] + b)[1..] == a[1..] + [sep] + b;
      IndexOfAfterPrefix(a[1..], sep, b);
    }
  }

  /** Replaces every occurrence of `from` by `to`, as Python's `str.replace` does for single characters. */
  function ReplaceChar(s: string, from: char, to: char): (r: string)
    ensures |r| == |s|
    ensures forall k :: 0 <= k < |s| ==> r[k] == (if s[k] == from then to else s[k])
  {
    if |s| == 0 then [] else [if s[0] == from then to else s[0]] + ReplaceChar(s[1..], from, to)
  }
}

=== FILE: validation.dfy ===
/**
 * `SheetFrame.validate_value`: the check every typed value goes through
 * before it is written, first against the column's type and then against
 * its standardization policy.
 */
module Validation {
  import opened Wrappers
  import opened Text
  import opened Numerals
  import opened Dates
  import opened Settings

  /** The reasons `validate_value` gives, one per message it can show. */
  datatype ValidationError =
    | NotAnInteger                          // "Valor deve ser inteiro"
    | CommaDecimal                          // "Para floats use ponto (.) como separador decimal"
    | NotADecimal                           // "Valor deve ser decimal (ex: 1234.56)"
    | BadDateFormat                         // "Formato de data inválido (dd-mm-aaaa)"
    | FixedValueRequired(allowed: seq<string>)  // empty value outside an initial insert
    | ValueNotAllowed(allowed: seq<string>)     // non-empty value outside the allowed list

  /** The type check on its own; any type name other than int, float and date accepts everything. */
  function TypeError(typeName: string, value: string): Option<ValidationError> {
    if value == "" then None
    else if typeName == "int" then (if IsIntText(value) then None else Some(NotAnInteger))
    else if typeName == "float" then
      (if ',' in value then Some(CommaDecimal)
       else if IsFloatText(value) then None
       else Some(NotADecimal))
    else if typeName == "date" then (if IsDateText(value) then None else Some(BadDateFormat))
    else None
  }

  /** The values a column type admits, stated without error messages. */
  predicate TypeAccepts(typeName: string, value: string) {
    || value == ""
    || (&& (typeName == "int" ==> IsIntText(value))
        && (typeName == "float" ==> ',' !in value && IsFloatText(value))
        && (typeName == "date" ==> IsDateText(value)))
  }

  /** The values a standardization policy admits; an empty value only on an initial insert. */
  predicate PolicyAccepts(std: Standardization, value: string, isInitial: bool) {
    std.mode == "fixed" ==> (if value == "" then isInitial else value in std.values)
  }

  /** `validate_value(table, col, value, is_initial)`; on success the value comes back unchanged. */
  function ValidateValue(cfg: Config, table: string, col: string, value: string, isInitial: bool)
    : (r: Result<string, ValidationError>)
    ensures r.Ok? ==> r.value == value
    ensures r.Ok? <==>
      TypeAccepts(ColType(cfg, table, col), value) && PolicyAccepts(GetStd(cfg, table, col), value, isInitial)
    ensures r.Err? && !TypeAccepts(ColType(cfg, table, col), value) ==>
      r.error in {NotAnInteger, CommaDecimal, NotADecimal, BadDateFormat}
  {
    match TypeError(ColType(cfg, table, col), value)
    case Some(e) => Err(e)
    case None =>
      var std := GetStd(cfg, table, col);
      if std.mode == "fixed" then
        if value == "" then
          (if isInitial then Ok(value) else Err(FixedValueRequired(std.values)))
        else if value !in std.values then Err(ValueNotAllowed(std.values))
        else Ok(value)
      else Ok(value)
  }

  /** The empty value never fails a type check; it fails only a fixed policy outside an initial insert. */
  lemma EmptyValueOutcome(cfg: Config, table: string, col: string, isInitial: bool)
    ensures var r := ValidateValue(cfg, table, col, "", isInitial);
      && (r.Ok? <==> (GetStd(cfg, table, col).mode != "fixed" || isInitial))
      && (r.Err? ==> r.error == FixedValueRequired(GetStd(cfg, table, col).values))
  {
  }

  /**
   * A float column rejects any value holding a comma with the dedicated
   * message; `float()` would have rejected it as well, so the guard only
   * changes the message, never the verdict.
   */
  lemma CommaRejectedInFloatColumns(cfg: Config, table: string, col: string, value: string, isInitial: bool)
    requires ColType(cfg, table, col) == "float"
    requires ',' in value
    ensures ValidateValue(cfg, table, col, value, isInitial) == Err(CommaDecimal)
    ensures !IsFloatText(value)
  {
    CommaIsNeverFloat(value);
  }

  /** In a fixed column, an accepted non-empty value is always one of the allowed values. */
  lemma FixedColumnsHoldAllowedValues(cfg: Config, table: string, col: string, value: string, isInitial: bool)
    requires GetStd(cfg, table, col).mode == "fixed"
    requires value != ""
    ensures ValidateValue(cfg, table, col, value, isInitial).Ok? ==> value in GetStd(cfg, table, col).values
    ensures value !in GetStd(cfg, table, col).values ==> ValidateValue(cfg, table, col, value, isInitial).Err?
  {
  }
}

=== FILE: wrappers.dfy ===
/** Failure-compatible Option and Result datatypes shared by every module. */
module Wrappers {

  datatype Option<+T> = None | Some(value: T) {
    predicate IsFailure() { None? }

    function PropagateFailure<U>(): Option<U>
      requires None?
    {
      None
    }

    function Extract(): T
      requires Some?
    {
      value
    }

    function GetOr(default: T): T {
      match this
      case Some(v) => v
      case None => default
    }
  }

  datatype Result<+R, +E> = Ok(value: R) | Err(error: E) {
    predicate IsFailure() { Err? }

    function PropagateFailure<U>(): Result<U, E>
      requires Err?
    {
      Err(error)
    }

    function Extract(): R
      requires Ok?
    {
      value
    }
  }
}
